=== FILE: README.md ===
# Election reports and election list — a Dafny model

This project models three parts of an election-management web application.

- **Report summary endpoint** (`getReportSummary`). It counts elections, votes and users. It counts the votes cast in each election and rounds the share of users as a percentage. It counts the distinct users who voted. If any store query fails, it answers with a 500 and nothing else.
- **Admin elections page**. For each election it fetches candidate and vote counts. It derives an *effective status* from the start and end dates, and it counts active, upcoming and completed elections. It filters the list by search text and by status. Its Start and End buttons move an election's stored status forward.
- **Admin reports view**. It keeps the elections whose name matches the search box, exports them as CSV, and picks a badge colour per status. It fills the "top candidate", "top department" and "last election" cards and sums invalid and spoiled votes.

The modules follow the program's structure:

| module | file | contents |
|---|---|---|
| `Wrappers` | wrappers.dfy | `Option`, `Result` |
| `Seqs` | seqs.dfy | `Array.filter`, a `reduce` sum, the keep-the-strictly-greater `forEach` scan, and the distinct values a `distinct` query returns |
| `Text` | text.dfy | ASCII `toLowerCase`, `includes`, decimal number text, `join` and `split` |
| `Domain` | domain.dfy | election status and JavaScript dates. A date that does not parse is the invalid date, and every comparison with it is false. |
| `StatusResolver` | status_resolver.dfy | the effective status of an election |
| `ElectionsPage` | elections_page.dfy | the elections page |
| `ReportController` | report_controller.dfy | the summary endpoint |
| `ReportsView` | reports_view.dfy | the reports view |

How the outside world is represented:

- **The endpoint's store** is a `Snapshot` of the elections, the votes and the number of user documents. A function `fault` says which queries reject, and with what message. Queries are issued in program order, with the per-election counts in list order. The error reported is the message of the first rejected query in that order.
- **The clock** is a parameter `now`, in milliseconds. On the elections page each election reads the clock after its own two fetches, so every election's reply carries its own `now`.
- **`Math.round(a / b * 100)`** for `a >= 0`, `b > 0` is the integer `(200a + b) / (2b)`. This is the unique `r` with `2b·r <= 200a + b < 2b·(r + 1)`.

Where the program's own comments, names or rendering promise more than its code does, the model follows the code:

- **Effective status.** The comment at src/pages/Elections.jsx:106 says the status is derived from the dates "if dates are valid". The test on the next line only checks that both date fields are truthy. The code then compares with `new Date(...)`, and every comparison with an invalid date is false. So with a valid start and an unparseable end, the result is still "upcoming" before the start. With an unparseable start and a valid end, it is "completed" after the end. `StatusResolver.UnparseableDates` states exactly this.
- **`null` dates.** A date field may be missing (`undefined`), empty, `null` or text. `null` is falsy like the first two, so it leaves the stored status in place. But `new Date(null)` is the epoch, not the invalid date. On the "last election" card a `null` creation date therefore counts as a real, very early date. `ReportsView.NullCreationIsEpoch` states this.
- **Missing title or description.** The row table guards the description (`election.description?.length`, src/pages/Elections.jsx:552). The search filter does not (src/pages/Elections.jsx:167-168). With a non-empty search text, a row without a title throws a `TypeError`. So does a row whose title does not match and which has no description. The `TypeError` escapes the effect that runs the filter (src/pages/Elections.jsx:62-64); src/pages/Elections.jsx defines no error boundary, and what React shows next is outside this model. `ElectionsPage.FilterElections` returns `Throws` with the first such row.
- **Election names.** The endpoint copies `election.name` into each entry (controllers/reportController.js:19). The elections page reads `title` instead. The reports view keeps only entries whose `name` is a string (src/components/admin/Reports.jsx:51). So if the store keeps names under `title`, every entry vanishes from the reports table, whatever the search text. `ReportsView.EmptySearchKeepsNamed` states this.
- **Fields the endpoint never sends.** The reports view reads candidates, creation and start/end dates, invalid and spoiled votes, and a per-department breakdown. The endpoint sends none of them. They are optional here, and `ReportsView.ServerSummaryCards` shows what the view displays for the endpoint's own data.
- **Cancelled card.** The elections page shows a "cancelled" card that reads `stats.cancelled || 0`. The statistics it computes have no such field, so that card always shows 0.

## Model

| member | source | states |
|---|---|---|
| `StatusResolver.ValidDatesDecide` | src/pages/Elections.jsx:99-115 | with both dates valid: "upcoming" iff now < start; "active" iff start <= now <= end; "completed" iff start <= now and end < now; the result is always a lifecycle phase, even for a stored "cancelled" |
| `StatusResolver.ValidDatesIgnoreStored` | src/pages/Elections.jsx:104-115 | with both dates valid the stored status has no influence on the effective status |
| `StatusResolver.EffectiveStatus` | src/pages/Elections.jsx:99-115 | a start or end field that is missing, empty or `null` leaves the stored status unchanged; otherwise the result is the stored status or a lifecycle phase |
| `StatusResolver.UnparseableDates` | src/pages/Elections.jsx:100-115 | two unparseable dates keep the stored status; an unparseable end with a valid start still gives "upcoming" before the start; an unparseable start with a valid end still gives "completed" after the end |
| `StatusResolver.PhaseNeverGoesBack` | src/pages/Elections.jsx:108-114 | with valid dates, the effective status never moves back in upcoming → active → completed as time advances |
| `StatusResolver.ReversedDatesNeverActive` | src/pages/Elections.jsx:110 | an end date before the start date means the election is never shown "active" |
| `StatusResolver.ResolvingTwiceIsResolvingOnce` | src/pages/Elections.jsx:99-115 | resolving an already-resolved status at the same time changes nothing |
| `Domain.StatusTextRoundTrip` | src/pages/Elections.jsx:154-156 | statuses correspond one-to-one with their stored texts, so status equality is the page's `===` on strings |
| `Domain.InvalidDateIsUnordered` | src/pages/Elections.jsx:108-112 | no `<`, `<=`, `>` comparison with an invalid date holds |
| `ElectionsPage.Enrich` | src/pages/Elections.jsx:78-136 | only status and the two counts of an election change; a failed per-election fetch keeps the stored status with counts 0; an answered one gives the effective status and the counts, missing counts read as 0 |
| `ElectionsPage.CalculateStats` | src/pages/Elections.jsx:151-159 | total is the number of rows; each count is the number of positions holding that status; active + upcoming + completed plus the rows off the lifecycle equals the total |
| `ElectionsPage.TotalVotesCast` | src/pages/Elections.jsx:432 | the total of the per-election vote counts is non-negative and at least each election's count |
| `ElectionsPage.TotalCandidates` | src/pages/Elections.jsx:464 | the total of the per-election candidate counts is non-negative and at least each election's count |
| `ElectionsPage.CardTotalsAreSums` | src/pages/Elections.jsx:430-466 | each card total is additive over a split of the list, and a single row contributes exactly its own count, which fixes the totals as the sums of the counts |
| `ElectionsPage.EnrichAll` | src/pages/Elections.jsx:77-138 | one row per listed election, in order, each enriched from its own reply |
| `ElectionsPage.Load` | src/pages/Elections.jsx:66-149 | a failed listing leaves the page as it was; a successful one shows every listed election enriched, in order, with statistics computed from exactly those rows; statistics stay in sync with the rows |
| `ElectionsPage.InitialPage` | src/pages/Elections.jsx:32-46 | the page starts with no rows and all statistics 0, which are in sync |
| `ElectionsPage.AllRejectedShowsStoredData` | src/pages/Elections.jsx:128-136 | when every per-election fetch fails the page shows the stored elections unchanged with zero counts |
| `ElectionsPage.SearchTest` | src/pages/Elections.jsx:166-169 | the search callback throws iff the title is missing, or the title does not match and the description is missing; otherwise it keeps the row iff its title or description contains the term ignoring case |
| `ElectionsPage.SearchPass` | src/pages/Elections.jsx:166-169 | the search filter throws iff some row makes the callback throw, and then at the first such row; otherwise it keeps exactly the matching rows in order |
| `ElectionsPage.FilterElections` | src/pages/Elections.jsx:161-178 | the filter throws iff the search text is non-empty and some row lacks a field the search reads, at the first such row; otherwise a row is kept iff its title or description contains the search term ignoring case (an empty term matches all) and its status equals the selected one (or "all" is selected); an empty search with "all" keeps the list as is |
| `ElectionsPage.FilterWithAllFields` | src/pages/Elections.jsx:161-178 | when every row has a title and a description, the filter never throws and keeps exactly the rows passing both filters |
| `ElectionsPage.FilterElectionsKeepsOrder` | src/pages/Elections.jsx:161-178 | the filtered list is an order-preserving subsequence of the rows, selecting exactly the shown positions |
| `ElectionsPage.OfferedTransition` | src/pages/Elections.jsx:599-616 | a row offers a button iff its status is upcoming or active, and the button's target is the next lifecycle phase |
| `ElectionsPage.StatusChangeRequest` | src/pages/Elections.jsx:243-249 | the update body is the row with its status replaced and nothing else changed |
| `ElectionsPage.PressButton` | src/pages/Elections.jsx:599-616 | pressing a row's button sends the row moved one phase forward, and only upcoming and active rows have one |
| `ElectionsPage.ButtonsEndAfterTwoPresses` | src/pages/Elections.jsx:599-616 | after at most two presses (Start, then End) no button is offered |
| `ElectionsPage.ButtonIneffectiveWithValidDates` | src/pages/Elections.jsx:243-252 | with both dates valid and the reload's count requests answered, the status a button stores makes no difference to the row shown after reloading; if those requests are rejected, the reload shows the stored status |
| `ReportController.RoundedPercent` | controllers/reportController.js:16 | the result is the integer nearest to 100·part/whole, halves rounding up |
| `ReportController.RoundedPercentUnique` | controllers/reportController.js:16 | that nearest integer is unique |
| `ReportController.Turnout` | controllers/reportController.js:16 | with no users the turnout is 0; otherwise it is the integer within half a point of 100·part/whole, halves rounding up (the same expression gives the voter turnout at line 30) |
| `ReportController.TurnoutAtMostHundred` | controllers/reportController.js:16 | a part no larger than the whole gives a turnout between 0 and 100 |
| `ReportController.TurnoutMonotone` | controllers/reportController.js:16 | more votes never give a lower turnout |
| `ReportController.VotesOf` | controllers/reportController.js:15 | the count is the number of positions holding a vote for that election, so at most the number of votes |
| `ReportController.VotesOfAppend` | controllers/reportController.js:15 | counting over two batches of votes adds the two counts |
| `ReportController.ElectionStats` | controllers/reportController.js:13-25 | the per-election step succeeds iff each election's count query is answered, and then yields one entry per election, in order, with its id, name, status, vote count and turnout |
| `ReportController.GetReportSummary` | controllers/reportController.js:5-44 | the reply is a summary iff every issued query is answered; otherwise a 500 with the fixed message and the error of the first issued query, in program order, that rejects; a summary reports the stored counts, the distinct voters, not-voted = users − voted, the rounded turnouts and one entry per election |
| `ReportController.StatsFailureIsIssued` | controllers/reportController.js:13-25 | a failed per-election step carries the message of the first election's count query, in list order, that rejects |
| `ReportController.ComputeFailureIsIssued` | controllers/reportController.js:6-43 | a failed computation carries the message of the first issued query that rejects; the awaits run one after another, so nothing after it is issued |
| `ReportController.NoUsersNoTurnout` | controllers/reportController.js:16-30 | with no users every turnout is 0 |
| `ReportController.TurnoutIsPercentage` | controllers/reportController.js:15-16 | an election with no more votes than users has a turnout between 0 and 100 |
| `ReportController.VotedSplitsUsers` | controllers/reportController.js:28-30 | voted + notVoted = users; notVoted is negative iff more distinct users voted than user documents exist; voted never exceeds the vote count |
| `ReportController.PerElectionVotesWithinTotal` | controllers/reportController.js:13-25 | when election ids are distinct, the per-election vote counts add up to at most the total number of votes |
| `ReportController.FirstRejectionIsReported` | controllers/reportController.js:7-42 | given the first issued query that rejects, the reply is the 500 and its error is exactly that query's message, whatever later queries would answer |
| `ReportController.AnyFaultFailsWholly` | controllers/reportController.js:41-43 | a single rejected query turns the whole reply into the 500 error: no partial summary |
| `ReportController.TwoElectionExample` | controllers/reportController.js:5-40 | two elections with 3 and 7 of 10 votes among 10 users give totals 2 and 10 and turnouts 30 and 70 |
| `ReportsView.FromServerAll` | controllers/reportController.js:17-23 | every entry as sent becomes one view entry, in order |
| `ReportsView.SearchEffect` | src/components/admin/Reports.jsx:46-55 | before data is loaded the list stays; after, it holds exactly the loaded elections with a textual name containing the search text ignoring case |
| `ReportsView.SearchKeepsOrder` | src/components/admin/Reports.jsx:46-55 | the search result is an order-preserving subsequence selecting exactly the matching positions |
| `ReportsView.EmptySearchKeepsNamed` | src/components/admin/Reports.jsx:49-52 | with an empty search an election is listed iff its name is a string |
| `ReportsView.CsvCells` | src/components/admin/Reports.jsx:71-78 | each row has as many cells as the header |
| `ReportsView.CsvLines` | src/components/admin/Reports.jsx:63-80 | the export has the header line and then one line per election, in order |
| `ReportsView.ExportCsv` | src/components/admin/Reports.jsx:57-61 | an export is refused exactly when the list is empty |
| `ReportsView.ExportLines` | src/components/admin/Reports.jsx:57-80 | split at newlines, the exported text gives back the header line and one line per election, provided no cell text holds a newline |
| `ReportsView.RowFields` | src/components/admin/Reports.jsx:71-80 | split at commas, a row gives back its six cells, provided no cell text holds a comma |
| `ReportsView.CountStatuses` | src/components/admin/Reports.jsx:221-238 | the complete and ongoing cards (with the upcoming count of lines 157-160) count disjoint sets of elections, each card counting the positions with its status, so together at most the number of elections |
| `ReportsView.StatusBadge` | src/components/admin/Reports.jsx:120-124 | the badge is "success" iff the status text is "completed", "primary" iff it is "active" or "ongoing", "secondary" otherwise |
| `ReportsView.BadgesMatchCards` | src/components/admin/Reports.jsx:119-124 | the "complete" card counts exactly the rows with a success badge and the "ongoing" card those with a primary badge |
| `ReportsView.TotalInvalidVotes` | src/components/admin/Reports.jsx:163-165 | with no negative count the invalid total is non-negative and at least each election's count; with no count at all it is 0 |
| `ReportsView.TotalSpoiledVotes` | src/components/admin/Reports.jsx:168-170 | with no negative count the spoiled total is non-negative and at least each election's count; with no count at all it is 0 |
| `ReportsView.TotalsSplit` | src/components/admin/Reports.jsx:163-170 | a single election adds its present count, or 0 when the count is missing, and the totals over two lists joined are the sums of their totals; together these fix each total as the sum of the present counts |
| `ReportsView.MostVotedCandidate` | src/components/admin/Reports.jsx:127-136 | the top candidate is the placeholder or one of the candidates, has at least as many votes as every candidate, and never fewer than 0 |
| `ReportsView.MostVotedIsOneScan` | src/components/admin/Reports.jsx:127-136 | the nested loop over elections and candidates is one scan over all candidates in order |
| `ReportsView.MostVotedIsFirstMaximum` | src/components/admin/Reports.jsx:127-136 | the top candidate is "-" with 0 votes iff no candidate has a positive count, and otherwise the first candidate with the most votes, whose position is unique; its count is at least every candidate's |
| `ReportsView.TopDepartment` | src/components/admin/Reports.jsx:139-146 | the top department is the placeholder or one of the departments, its turnout is at least every department's and never below 0; without a breakdown it is the placeholder |
| `ReportsView.TopDepartmentIsFirstMaximum` | src/components/admin/Reports.jsx:138-146 | the top department is "-" with 0 iff no department has positive turnout, and otherwise the first department with the highest turnout, whose position is unique |
| `ReportsView.LastElection` | src/components/admin/Reports.jsx:172-176 | there is a last election iff there is any election |
| `ReportsView.LastElectionWithValidDates` | src/components/admin/Reports.jsx:173-176 | when every creation date parses, the last election is the first one with the latest creation date |
| `ReportsView.UndatedFirstElectionWins` | src/components/admin/Reports.jsx:174-175 | a first election whose creation date is missing, empty or unparseable (but not `null`) is always the last election |
| `ReportsView.DatedFirstElectionFindsLatest` | src/components/admin/Reports.jsx:173-176 | when the first election's creation date is a valid date, the last election has a valid creation date no earlier than any valid creation date in the list |
| `ReportsView.NullCreationIsEpoch` | src/components/admin/Reports.jsx:174-175 | a first election created `null` loses to any later election created after the epoch |
| `ReportsView.LastElectionIsFirstOrDated` | src/components/admin/Reports.jsx:173-176 | the last election is the first one or one whose creation date parses |
| `ReportsView.ServerSummaryCards` | src/components/admin/Reports.jsx:126-176 | for the endpoint's own summary: no invalid or spoiled votes, "-" as top candidate and department, and the first election (if any) as the last one created |
| `Seqs.FilterSelectsExactly` | src/pages/Elections.jsx:166-174 | `Array.filter` keeps, in order, exactly the positions whose element satisfies the predicate |
| `Seqs.KeepGreaterFindsFirstMaximum` | src/components/admin/Reports.jsx:139-146 | the keep-the-strictly-greater scan returns its start when nothing beats it, and otherwise the first element of maximal key |
| `Seqs.DistinctCountsValues` | controllers/reportController.js:28 | the distinct values of the vote users are as many as the set of users who voted |
| `Text.MatchesSearchIgnoresCase` | src/pages/Elections.jsx:167-168 | a lowercase `includes` holds iff the term occurs at some position once both sides are lower-cased |
| `Text.DecimalRoundTrip` | src/components/admin/Reports.jsx:76-77 | the decimal text of a count reads back as that count |
| `Text.SplitJoin` | src/components/admin/Reports.jsx:79-80 | splitting a join at its separator gives back the parts when none contains the separator |

## Left out

- HTTP, routing, authentication headers and the role check: they carry data but decide nothing modelled here.
- `Promise.all` concurrency on the server and on the elections page: the store is one snapshot, queries are taken in list order, and the reported error is the first rejected query in that order. JavaScript would report whichever rejection settles first.
- Writes to the store while the endpoint runs: the sequential awaits at controllers/reportController.js:7-10 and the one at :28 are all answered from the same snapshot. `ReportController.VotedSplitsUsers` (voted never exceeds the vote count) and the summary's `totalElections == |elections|` rely on that; a vote or election added between two awaits could break either.
- Console logging, the toast pop-ups, loading spinners, JSX rendering, charts, the DOM download of the CSV (`Blob`, object URL, anchor click) and the PDF "coming soon" button: none of them changes modelled state.
- The catch branch of the CSV export: nothing in the modelled text building can throw.
- Locale date formatting (`toLocaleDateString`): it is a parameter of the export.
- `Number.toString` for the two numeric cells: it is modelled for non-negative integers only, which is what the endpoint sends.
- `toLowerCase`: modelled for ASCII letters only; the Unicode case mapping is not modelled.
- Average turnout (src/components/admin/Reports.jsx:148-155): it uses `parseFloat` and `toFixed`, which are floating point.
- ReportController.RoundedPercent: it is exact rational rounding; the floating-point error of `votes / totalUsers * 100` before `Math.round` is not modelled.
- Create, edit and delete of elections, the modals and the form state on the elections page: they are requests to a server this model does not include.
- The elections page's own badge rendering (`getStatusBadge` with icons): it is display only.
- The last admin action card: it reads `auditLogs`, which nothing produces.
- The notifications component, the report route and the models (Mongoose schemas) are not part of this model.

=== FILE: domain.dfy ===
/** Values shared by the server and the two admin views: an election's
    lifecycle status and the JavaScript dates the views compare. */
module Domain {

  /** The status text stored with an election. The elections page offers the
      first four; the reports view also tests for "ongoing"; `Other` stands for
      any other text the store may hold. */
  datatype Label = Upcoming | Active | Completed | Cancelled | Ongoing | Other(text: string)

  predicate IsStatusName(t: string)
  {
    t == "upcoming" || t == "active" || t == "completed" || t == "cancelled" || t == "ongoing"
  }

  /** An `Other` never spells one of the named statuses, so two statuses are
      equal exactly when their texts are (`===` on the stored strings). */
  type Status = l: Label | l.Other? ==> !IsStatusName(l.text) witness Upcoming

  /** The stored text of a status. */
  function StatusText(s: Status): string
  {
    match s
    case Upcoming => "upcoming"
    case Active => "active"
    case Completed => "completed"
    case Cancelled => "cancelled"
    case Ongoing => "ongoing"
    case Other(t) => t
  }

  /** The status a stored text denotes. */
  function ParseStatus(t: string): Status
  {
    if t == "upcoming" then Upcoming
    else if t == "active" then Active
    else if t == "completed" then Completed
    else if t == "cancelled" then Cancelled
    else if t == "ongoing" then Ongoing
    else Other(t)
  }

  /** Statuses and their texts are in one-to-one correspondence, so comparing
      statuses is comparing the stored strings. */
  lemma StatusTextRoundTrip(s: Status, t: string)
    ensures ParseStatus(StatusText(s)) == s
    ensures StatusText(ParseStatus(t)) == t
  {
  }

  /** A JavaScript `Date`: a time value in milliseconds, or the invalid date
      (time value NaN) that `new Date(text)` yields when the text does not parse. */
  datatype Instant = At(ms: int) | InvalidDate

  /** A date-valued field of a document. `Blank` is `undefined` or the empty
      string: falsy, and `new Date` of it is the invalid date. `Null` is
      `null`: falsy as well, but `new Date(null)` is the epoch. `Given` is any
      other text, with `parsed` the result of `new Date(text)`. */
  datatype DateField = Blank | Null | Given(parsed: Instant)

  /** `new Date(field)`. */
  function DateOf(f: DateField): Instant
  {
    match f
    case Blank => InvalidDate
    case Null => At(0)
    case Given(d) => d
  }

  /** A field passes a truthiness test exactly when it holds some text. */
  predicate IsFilledIn(f: DateField)
  {
    f.Given?
  }

  /** `a < b` on dates: false whenever either side is the invalid date. */
  predicate Earlier(a: Instant, b: Instant)
  {
    a.At? && b.At? && a.ms < b.ms
  }

  /** `a <= b` on dates: false whenever either side is the invalid date. */
  predicate NotLater(a: Instant, b: Instant)
  {
    a.At? && b.At? && a.ms <= b.ms
  }

  /** A comparison with the invalid date never holds: NaN is unordered. */
  lemma InvalidDateIsUnordered(a: Instant)
    ensures !Earlier(a, InvalidDate) && !Earlier(InvalidDate, a)
    ensures !NotLater(a, InvalidDate) && !NotLater(InvalidDate, a)
  {
  }
}

=== FILE: elections_page.dfy ===
/** The admin elections page: loading the election list with per-election
    candidate and vote counts and an effective status, the statistics cards,
    the search and status filter, and the Start / End buttons. The HTTP
    requests are replaced by their answers, given as parameters. */
module ElectionsPage {
  import opened Wrappers
  import opened Seqs
  import opened Text
  import opened Domain
  import StatusResolver

  /** An election document as the election list request returns it. The
      title and description are absent (`None`) when the document has no
      string under that key. */
  datatype Election = Election(
    id: string,
    title: Option<string>,
    description: Option<string>,
    status: Status,
    startDate: DateField,
    endDate: DateField,
    positions: seq<string>)

  /** An election as the page holds it: the document (with its status
      possibly replaced by the effective one) plus the two counts. */
  datatype Row = Row(election: Election, candidatesCount: nat, votesCount: nat)

  /** What the two per-election requests produced: the lengths of the
      candidate and vote responses (absent when the body has no numeric
      `length`) and the clock reading taken after both answered; or a
      rejection. */
  datatype CountsReply =
    | Answered(candidates: Option<nat>, votes: Option<nat>, now: int)
    | Rejected

  /** An election of the listing together with its own requests' outcome. */
  datatype Listed = Listed(election: Election, reply: CountsReply)

  /** One election of the listing as the page stores it: on success the
      effective status and the two counts (`data?.length || 0`); on a
      rejected request the untouched document with both counts 0. */
  function Enrich(e: Election, reply: CountsReply): (row: Row)
    ensures row.election.(status := e.status) == e
    ensures reply.Rejected? ==> row == Row(e, 0, 0)
    ensures reply.Answered? ==>
      && row.election.status == StatusResolver.EffectiveStatus(e.status, e.startDate, e.endDate, reply.now)
      && row.candidatesCount == reply.candidates.GetOr(0)
      && row.votesCount == reply.votes.GetOr(0)
  {
    match reply
    case Answered(candidates, votes, now) =>
      var shown := StatusResolver.EffectiveStatus(e.status, e.startDate, e.endDate, now);
      Row(e.(status := shown), candidates.GetOr(0), votes.GetOr(0))
    case Rejected =>
      Row(e, 0, 0)
  }

  // ---------------------------------------------------------------------------
  // statistics cards

  /** The counters behind the cards. There is no cancelled counter: the
      "Cancelled" card reads a field that is never set and always shows 0. */
  datatype Stats = Stats(total: nat, active: nat, upcoming: nat, completed: nat)

  predicate IsActive(r: Row) { r.election.status == Active }
  predicate IsUpcoming(r: Row) { r.election.status == Upcoming }
  predicate IsCompleted(r: Row) { r.election.status == Completed }
  predicate IsActiveOrUpcoming(r: Row) { IsActive(r) || IsUpcoming(r) }
  predicate InLifecycle(r: Row) { IsActiveOrUpcoming(r) || IsCompleted(r) }
  predicate OffLifecycle(r: Row) { !InLifecycle(r) }

  /** `calculateStats`: the list length and one count per lifecycle status.
      Each count is the number of positions holding an election of that
      status, and the three counts leave out exactly the elections in none
      of the three (cancelled or other). */
  function CalculateStats(rows: seq<Row>): (st: Stats)
    ensures st.total == |rows|
    ensures st.active == |PositionsWhere(rows, IsActive)|
    ensures st.upcoming == |PositionsWhere(rows, IsUpcoming)|
    ensures st.completed == |PositionsWhere(rows, IsCompleted)|
    ensures st.active + st.upcoming + st.completed + |Filter(rows, OffLifecycle)| == st.total
  {
    FilterCountsPositions(rows, IsActive);
    FilterCountsPositions(rows, IsUpcoming);
    FilterCountsPositions(rows, IsCompleted);
    FilterDisjointCount(rows, IsActive, IsUpcoming, IsActiveOrUpcoming);
    FilterDisjointCount(rows, IsActiveOrUpcoming, IsCompleted, InLifecycle);
    FilterComplementCount(rows, InLifecycle, OffLifecycle);
    Stats(|rows|, |Filter(rows, IsActive)|, |Filter(rows, IsUpcoming)|, |Filter(rows, IsCompleted)|)
  }

  function VotesCountOf(r: Row): int { r.votesCount }
  function CandidatesCountOf(r: Row): int { r.candidatesCount }

  /** "Total Votes Cast": `reduce((sum, e) => sum + (e.votesCount || 0), 0)`. */
  function TotalVotesCast(rows: seq<Row>): (n: int)
    ensures n >= 0
    ensures forall k :: 0 <= k < |rows| ==> rows[k].votesCount <= n
  {
    SumOfNonNegative(rows, VotesCountOf);
    Sum(rows, VotesCountOf)
  }

  /** "Total Candidates": `reduce((sum, e) => sum + (e.candidatesCount || 0), 0)`. */
  function TotalCandidates(rows: seq<Row>): (n: int)
    ensures n >= 0
    ensures forall k :: 0 <= k < |rows| ==> rows[k].candidatesCount <= n
  {
    SumOfNonNegative(rows, CandidatesCountOf);
    Sum(rows, CandidatesCountOf)
  }

  /** The two card totals are sums over the rows: a single row contributes
      its own count, and the total of a split list is the sum of the totals
      of its parts. These two facts determine the totals completely. */
  lemma CardTotalsAreSums(a: seq<Row>, b: seq<Row>, r: Row)
    ensures TotalVotesCast([r]) == r.votesCount
    ensures TotalCandidates([r]) == r.candidatesCount
    ensures TotalVotesCast(a + b) == TotalVotesCast(a) + TotalVotesCast(b)
    ensures TotalCandidates(a + b) == TotalCandidates(a) + TotalCandidates(b)
  {
    assert [r][1..] == [];
    assert Sum([r], VotesCountOf) == VotesCountOf(r) + Sum([], VotesCountOf);
    assert Sum([r], CandidatesCountOf) == CandidatesCountOf(r) + Sum([], CandidatesCountOf);
    SumAppend(a, b, VotesCountOf);
    SumAppend(a, b, CandidatesCountOf);
  }

  // ---------------------------------------------------------------------------
  // loading

  /** The page state `fetchElections` writes: the rows and the statistics. */
  datatype Page = Page(elections: seq<Row>, stats: Stats)

  /** The statistics describe the rows on display. */
  ghost predicate StatsInSync(p: Page)
  {
    p.stats == CalculateStats(p.elections)
  }

  /** `Promise.all(listing.map(...))`: every election enriched, in order. */
  function EnrichAll(listing: seq<Listed>): (rows: seq<Row>)
    ensures |rows| == |listing|
    ensures forall i :: 0 <= i < |listing| ==> rows[i] == Enrich(listing[i].election, listing[i].reply)
  {
    if |listing| == 0 then [] else [Enrich(listing[0].election, listing[0].reply)] + EnrichAll(listing[1..])
  }

  /** `fetchElections`: when the election list request fails (`None`) the page
      keeps what it showed; otherwise it shows the enriched listing and its
      statistics. A per-election failure never fails the whole load. */
  function Load(p: Page, listing: Option<seq<Listed>>): (q: Page)
    ensures listing.None? ==> q == p
    ensures listing.Some? ==> q.elections == EnrichAll(listing.value) && StatsInSync(q)
    ensures StatsInSync(p) ==> StatsInSync(q)
  {
    match listing
    case None => p
    case Some(ls) =>
      var rows := EnrichAll(ls);
      Page(rows, CalculateStats(rows))
  }

  /** The page before its first load. */
  function InitialPage(): (p: Page)
    ensures p.elections == [] && p.stats == Stats(0, 0, 0, 0)
    ensures StatsInSync(p)
  {
    Page([], Stats(0, 0, 0, 0))
  }

  /** When every per-election request was rejected, the page shows every
      stored status unchanged and no votes at all. */
  lemma AllRejectedShowsStoredData(p: Page, ls: seq<Listed>)
    requires forall i :: 0 <= i < |ls| ==> ls[i].reply.Rejected?
    ensures var q := Load(p, Some(ls));
      && (forall i :: 0 <= i < |ls| ==> q.elections[i].election == ls[i].election)
      && TotalVotesCast(q.elections) == 0
  {
    var rows := Load(p, Some(ls)).elections;
    SumOfZeros(rows, VotesCountOf);
  }

  // ---------------------------------------------------------------------------
  // search and status filter

  /** The status drop-down: "all" or one status. */
  datatype StatusFilter = AllStatuses | OnlyStatus(status: Status)

  /** The search box test: the title or the description is text containing
      the term, ignoring case. */
  predicate SearchHit(term: string, r: Row)
  {
    || (r.election.title.Some? && MatchesSearch(r.election.title.value, term))
    || (r.election.description.Some? && MatchesSearch(r.election.description.value, term))
  }

  /** `election.title.toLowerCase()` is evaluated on every row, and
      `election.description.toLowerCase()` on every row whose title does not
      match (`||` short-circuits); either call on a missing field throws a
      `TypeError`. */
  predicate SearchThrows(term: string, r: Row)
  {
    || r.election.title.None?
    || (!MatchesSearch(r.election.title.value, term) && r.election.description.None?)
  }

  /** The search callback as the page evaluates it on one row: whether the
      row stays, or `None` where the callback throws. */
  function SearchTest(term: string, r: Row): (keep: Option<bool>)
    ensures keep.None? <==> SearchThrows(term, r)
    ensures keep.Some? ==> keep.value == SearchHit(term, r)
  {
    match r.election.title
    case None => None
    case Some(t) =>
      if MatchesSearch(t, term) then Some(true)
      else match r.election.description
        case None => None
        case Some(d) => Some(MatchesSearch(d, term))
  }

  predicate StatusHit(filter: StatusFilter, r: Row)
  {
    filter.AllStatuses? || r.election.status == filter.status
  }

  /** The combined condition for a row to stay visible; the search applies
      only to a non-empty term. */
  predicate Shown(term: string, filter: StatusFilter, r: Row)
  {
    (|term| == 0 || SearchHit(term, r)) && StatusHit(filter, r)
  }

  /** The rows the search keeps, and the rows both filters keep, as the
      predicates `Filter` takes. */
  function SearchedBy(term: string): Row -> bool
  {
    (x: Row) => SearchHit(term, x)
  }

  function ShownBy(term: string, filter: StatusFilter): Row -> bool
  {
    (x: Row) => Shown(term, filter, x)
  }

  /** What the filter effect produces: the visible rows, or the position of
      the row whose missing field made the search callback throw (the effect
      then never sets the list). */
  datatype Filtered = Visible(rows: seq<Row>) | Throws(at: nat)

  /** `rows.filter(searchCallback)`: the callback runs on the rows in order
      and the first throw aborts the whole filter. */
  function SearchPass(rows: seq<Row>, term: string): (r: Filtered)
    ensures r.Throws? <==> exists i :: 0 <= i < |rows| && SearchThrows(term, rows[i])
    ensures r.Throws? ==> r.at < |rows| && SearchThrows(term, rows[r.at])
    ensures r.Throws? ==> forall j :: 0 <= j < r.at ==> !SearchThrows(term, rows[j])
    ensures r.Visible? ==> r.rows == Filter(rows, SearchedBy(term))
    decreases |rows|
  {
    if |rows| == 0 then Visible([])
    else match SearchTest(term, rows[0])
      case None => Throws(0)
      case Some(keep) =>
        match SearchPass(rows[1..], term)
        case Throws(at) =>
          assert rows[1..][at] == rows[at + 1];
          assert forall j :: 1 <= j < at + 1 ==> rows[j] == rows[1..][j - 1];
          Throws(at + 1)
        case Visible(rest) =>
          assert forall j :: 1 <= j < |rows| ==> rows[j] == rows[1..][j - 1];
          Visible(if keep then [rows[0]] + rest else rest)
  }

  /** `filterElections`: the search filter (skipped for an empty term), then
      the status filter (skipped for "all"). It throws exactly when the term
      is non-empty and some row lacks a field the search reads, and then at
      the first such row; otherwise it keeps exactly the shown rows. */
  function FilterElections(rows: seq<Row>, term: string, filter: StatusFilter): (r: Filtered)
    ensures r.Throws? <==> |term| > 0 && exists i :: 0 <= i < |rows| && SearchThrows(term, rows[i])
    ensures r.Throws? ==> r.at < |rows| && SearchThrows(term, rows[r.at])
    ensures r.Throws? ==> forall j :: 0 <= j < r.at ==> !SearchThrows(term, rows[j])
    ensures r.Visible? ==> r.rows == Filter(rows, ShownBy(term, filter))
    ensures r.Visible? ==> |r.rows| <= |rows|
    ensures r.Visible? ==> forall k :: 0 <= k < |r.rows| ==> Shown(term, filter, r.rows[k])
    ensures r.Visible? ==> forall i :: 0 <= i < |rows| && Shown(term, filter, rows[i]) ==> rows[i] in r.rows
    ensures r.Visible? ==> forall k :: 0 <= k < |r.rows| ==> r.rows[k] in rows
    ensures term == "" && filter.AllStatuses? ==> r == Visible(rows)
  {
    var searched := if |term| > 0 then SearchPass(rows, term) else Visible(rows);
    match searched
    case Throws(at) => Throws(at)
    case Visible(kept) =>
      var result := if filter.AllStatuses? then kept else Filter(kept, (x: Row) => StatusHit(filter, x));
      assert result == Filter(rows, ShownBy(term, filter)) by {
        FilterIsShown(rows, term, filter, kept);
      }
      Visible(result)
  }

  /** The two-stage filter selects by `Shown` in a single pass. */
  lemma FilterIsShown(rows: seq<Row>, term: string, filter: StatusFilter, kept: seq<Row>)
    requires |term| > 0 ==> kept == Filter(rows, SearchedBy(term))
    requires |term| == 0 ==> kept == rows
    ensures (if filter.AllStatuses? then kept else Filter(kept, (x: Row) => StatusHit(filter, x)))
         == Filter(rows, ShownBy(term, filter))
  {
    var search := SearchedBy(term);
    var status := (x: Row) => StatusHit(filter, x);
    var shown := ShownBy(term, filter);
    if filter.AllStatuses? {
      if |term| == 0 {
        FilterKeepsAll(rows, shown);
      } else {
        FilterAgrees(rows, shown, search);
      }
    } else {
      if |term| == 0 {
        FilterAgrees(rows, shown, status);
      } else {
        FilterTwice(rows, search, status, shown);
      }
    }
  }

  /** When every row has both a title and a description, the search never
      throws and the page shows exactly the rows passing both filters. */
  lemma FilterWithAllFields(rows: seq<Row>, term: string, filter: StatusFilter)
    requires forall i :: 0 <= i < |rows| ==> rows[i].election.title.Some? && rows[i].election.description.Some?
    ensures FilterElections(rows, term, filter) == Visible(Filter(rows, ShownBy(term, filter)))
  {
    forall i | 0 <= i < |rows|
      ensures !SearchThrows(term, rows[i])
    {
    }
  }

  /** The visible list is an order-preserving subsequence of the loaded list,
      keeping exactly the positions whose election passes both filters. */
  lemma FilterElectionsKeepsOrder(rows: seq<Row>, term: string, filter: StatusFilter) returns (idx: seq<int>)
    requires FilterElections(rows, term, filter).Visible?
    ensures SelectedBy(FilterElections(rows, term, filter).rows, rows, idx)
    ensures forall i :: 0 <= i < |rows| ==> (i in idx <==> Shown(term, filter, rows[i]))
  {
    idx := FilterSelectsExactly(rows, ShownBy(term, filter));
  }

  // ---------------------------------------------------------------------------
  // Start / End buttons

  /** The button a row offers: "Start" (to active) for an upcoming election,
      "End" (to completed) for an active one, none otherwise. */
  function OfferedTransition(s: Status): (next: Option<Status>)
    ensures next.Some? <==> StatusResolver.Phase(s) == 0 || StatusResolver.Phase(s) == 1
    ensures next.Some? ==> StatusResolver.Phase(next.value) == StatusResolver.Phase(s) + 1
  {
    match s
    case Upcoming => Some(Active)
    case Active => Some(Completed)
    case _ => None
  }

  /** `handleStatusChange`: the update request body is the displayed row
      with only its status replaced. */
  function StatusChangeRequest(row: Row, newStatus: Status): (body: Row)
    ensures body.election.status == newStatus
    ensures body.(election := body.election.(status := row.election.status)) == row
  {
    row.(election := row.election.(status := newStatus))
  }

  /** Pressing the row's button, if it has one: the request it sends. */
  function PressButton(row: Row): (body: Option<Row>)
    ensures body.Some? <==> row.election.status == Upcoming || row.election.status == Active
    ensures body.Some? ==> StatusResolver.Phase(body.value.election.status) == StatusResolver.Phase(row.election.status) + 1
    ensures body.Some? ==> body.value.(election := body.value.election.(status := row.election.status)) == row
  {
    match OfferedTransition(row.election.status)
    case Some(next) => Some(StatusChangeRequest(row, next))
    case None => None
  }

  /** The buttons walk an election through the lifecycle in at most two
      presses: Start then End, after which no button is offered. */
  lemma ButtonsEndAfterTwoPresses(row: Row)
    ensures var first := PressButton(row);
      first.Some? ==> (var second := PressButton(first.value);
        second.Some? ==> PressButton(second.value).None?)
  {
  }

  /** The buttons act on the stored status, but when both dates are valid and
      the reload's count requests are answered, the next load shows the
      date-derived status whatever was stored: pressing a button then changes
      nothing on the page. When those requests are rejected the reload shows
      the stored status, so the press is visible. */
  lemma ButtonIneffectiveWithValidDates(e: Election, newStatus: Status, start: int, end: int, reply: CountsReply)
    requires e.startDate == Given(At(start)) && e.endDate == Given(At(end))
    ensures reply.Answered? ==> Enrich(e.(status := newStatus), reply) == Enrich(e, reply)
    ensures reply.Rejected? ==> Enrich(e.(status := newStatus), reply).election.status == newStatus
  {
    if reply.Answered? {
      StatusResolver.ValidDatesIgnoreStored(newStatus, e.status, start, end, reply.now);
    }
  }
}

=== FILE: report_controller.dfy ===
/** The report summary endpoint: totals, per-election vote counts and
    turnout, and how many users have voted. The document store is a
    snapshot of its three collections together with a fault function that
    says which queries reject, and with what message. */
module ReportController {
  import opened Wrappers
  import opened Seqs
  import opened Domain

  /** An election document. The endpoint reads its `name`, which the stored
      documents may lack (the elections page reads `title` instead). */
  datatype ElectionDoc = ElectionDoc(id: string, name: Option<string>, status: Status)

  /** A vote document: which election, cast by which user. */
  datatype VoteDoc = VoteDoc(election: string, user: string)

  /** The store's contents: elections in their natural order, votes, and the
      number of user documents (users serve only as the denominator). */
  datatype Snapshot = Snapshot(elections: seq<ElectionDoc>, votes: seq<VoteDoc>, userCount: nat)

  /** The store queries the endpoint issues. */
  datatype Query =
    | CountElections
    | CountVotes
    | CountUsers
    | FindElections
    | CountVotesOf(election: string)
    | DistinctVoters

  /** One entry of the summary's `elections` array. */
  datatype ElectionStat = ElectionStat(id: string, name: Option<string>, status: Status, votes: nat, turnout: nat)

  /** The JSON body of a successful response. */
  datatype Summary = Summary(
    totalElections: nat,
    totalVotes: nat,
    totalUsers: nat,
    voterTurnout: nat,
    voted: nat,
    notVoted: int,
    elections: seq<ElectionStat>)

  /** The HTTP response: the summary, or status 500 with a fixed message and
      the rejected query's error message. */
  datatype Response =
    | Ok(summary: Summary)
    | ServerError(code: nat, message: string, error: string)

  const FailureMessage := "Failed to fetch report summary"

  // ---------------------------------------------------------------------------
  // turnout arithmetic

  /** `Math.round(part / whole * 100)` on exact rationals: the percentage
      rounded to the nearest integer, halves rounded up. */
  function RoundedPercent(part: nat, whole: nat): (r: nat)
    requires whole > 0
    ensures 2 * whole * r <= 200 * part + whole < 2 * whole * (r + 1)
  {
    (200 * part + whole) / (2 * whole)
  }

  /** `whole ? Math.round(part / whole * 100) : 0`. */
  function Turnout(part: nat, whole: nat): (r: nat)
    ensures whole == 0 ==> r == 0
    ensures whole > 0 ==> 2 * whole * r <= 200 * part + whole < 2 * whole * (r + 1)
  {
    if whole == 0 then 0 else RoundedPercent(part, whole)
  }

  /** The rounding characterisation fixes the result: no other integer is
      within half a point of the exact percentage in the same way. */
  lemma RoundedPercentUnique(part: nat, whole: nat, r: int)
    requires whole > 0
    requires 2 * whole * r <= 200 * part + whole < 2 * whole * (r + 1)
    ensures r == RoundedPercent(part, whole)
  {
    var q := RoundedPercent(part, whole);
    if r < q {
      assert 2 * whole * (r + 1) <= 2 * whole * q by {
        MultiplyMonotone(2 * whole, r + 1, q);
      }
    } else if r > q {
      assert 2 * whole * (q + 1) <= 2 * whole * r by {
        MultiplyMonotone(2 * whole, q + 1, r);
      }
    }
  }

  lemma MultiplyMonotone(c: nat, a: int, b: int)
    requires a <= b
    ensures c * a <= c * b
  {
  }

  /** A part no larger than the whole gives a turnout between 0 and 100. */
  lemma TurnoutAtMostHundred(part: nat, whole: nat)
    requires part <= whole
    ensures 0 <= Turnout(part, whole) <= 100
  {
    if whole > 0 {
      var r := Turnout(part, whole);
      assert 2 * whole * r <= 200 * part + whole;
      assert 200 * part + whole <= 201 * whole;
      if r > 100 {
        MultiplyMonotone(2 * whole, 101, r);
      }
    }
  }

  /** More votes never give a lower turnout. */
  lemma TurnoutMonotone(a: nat, b: nat, whole: nat)
    requires a <= b
    ensures Turnout(a, whole) <= Turnout(b, whole)
  {
    if whole > 0 {
      var ra, rb := Turnout(a, whole), Turnout(b, whole);
      if ra > rb {
        MultiplyMonotone(2 * whole, rb + 1, ra);
      }
    }
  }

  // ---------------------------------------------------------------------------
  // the store

  /** `countDocuments({ election: id })`: the number of vote documents whose
      election is `id`. */
  function VotesOf(votes: seq<VoteDoc>, id: string): (n: nat)
    ensures n <= |votes|
    ensures n == |set i | 0 <= i < |votes| && votes[i].election == id|
  {
    var forId := (v: VoteDoc) => v.election == id;
    FilterCountsPositions(votes, forId);
    assert PositionsWhere(votes, forId) == set i | 0 <= i < |votes| && votes[i].election == id;
    |Filter(votes, forId)|
  }

  /** Counting over two batches of votes adds the two counts. */
  lemma VotesOfAppend(a: seq<VoteDoc>, b: seq<VoteDoc>, id: string)
    ensures VotesOf(a + b, id) == VotesOf(a, id) + VotesOf(b, id)
  {
    FilterAppend(a, b, (v: VoteDoc) => v.election == id);
  }

  /** The users that cast the votes, in order. */
  function Voters(votes: seq<VoteDoc>): (users: seq<string>)
    ensures |users| == |votes|
    ensures forall k :: 0 <= k < |votes| ==> users[k] == votes[k].user
  {
    if |votes| == 0 then [] else [votes[0].user] + Voters(votes[1..])
  }

  /** Asks the store `q`, whose answer from the snapshot is `answer`. */
  function Ask<A>(fault: Query -> Option<string>, q: Query, answer: A): (r: Result<A>)
    ensures r.Success? <==> fault(q).None?
    ensures r.Success? ==> r.value == answer
    ensures r.Failure? ==> r.error == fault(q).value
  {
    match fault(q)
    case None => Success(answer)
    case Some(msg) => Failure(msg)
  }

  /** The queries the endpoint issues, in program order. */
  function Issued(db: Snapshot): seq<Query>
  {
    [CountElections, CountVotes, CountUsers, FindElections]
      + CountQueries(db.elections)
      + [DistinctVoters]
  }

  function CountQueries(es: seq<ElectionDoc>): (qs: seq<Query>)
    ensures |qs| == |es|
    ensures forall i :: 0 <= i < |es| ==> qs[i] == CountVotesOf(es[i].id)
  {
    if |es| == 0 then [] else [CountVotesOf(es[0].id)] + CountQueries(es[1..])
  }

  /** No query in `qs` rejects. */
  ghost predicate AllAnswered(fault: Query -> Option<string>, qs: seq<Query>)
  {
    forall k :: 0 <= k < |qs| ==> fault(qs[k]).None?
  }

  /** The entry for one election: its id, name and status, the number of
      votes that reference it, and that number as a share of all users. */
  function StatOf(db: Snapshot, e: ElectionDoc, totalUsers: nat): ElectionStat
  {
    var votes := VotesOf(db.votes, e.id);
    ElectionStat(e.id, e.name, e.status, votes, Turnout(votes, totalUsers))
  }

  /** Position `k` of `qs` is the first query that rejects, and it rejects
      with `msg`: every query before it is answered. */
  ghost predicate FirstRejected(fault: Query -> Option<string>, qs: seq<Query>, k: int, msg: string)
  {
    && 0 <= k < |qs|
    && fault(qs[k]) == Some(msg)
    && forall j :: 0 <= j < k ==> fault(qs[j]).None?
  }

  /** The `Promise.all` over the elections: one count query per election, in
      order; the first rejected one (in list order) fails the whole step. */
  function ElectionStats(db: Snapshot, fault: Query -> Option<string>, es: seq<ElectionDoc>, totalUsers: nat)
    : (r: Result<seq<ElectionStat>>)
    ensures r.Success? <==> AllAnswered(fault, CountQueries(es))
    ensures r.Success? ==> |r.value| == |es|
    ensures r.Success? ==> forall i :: 0 <= i < |es| ==> r.value[i] == StatOf(db, es[i], totalUsers)
  {
    if |es| == 0 then Success([])
    else
      var head :- Ask(fault, CountVotesOf(es[0].id), StatOf(db, es[0], totalUsers));
      var tail :- ElectionStats(db, fault, es[1..], totalUsers);
      Success([head] + tail)
  }

  /** The body of the `try` block. */
  function Compute(db: Snapshot, fault: Query -> Option<string>): Result<Summary>
  {
    var totalElections :- Ask(fault, CountElections, |db.elections|);
    var totalVotes :- Ask(fault, CountVotes, |db.votes|);
    var totalUsers :- Ask(fault, CountUsers, db.userCount);
    var elections :- Ask(fault, FindElections, db.elections);
    var stats :- ElectionStats(db, fault, elections, totalUsers);
    var voters :- Ask(fault, DistinctVoters, Distinct(Voters(db.votes)));
    var voted := |voters|;
    Success(Summary(totalElections, totalVotes, totalUsers, Turnout(voted, totalUsers),
                    voted, totalUsers - voted, stats))
  }

  /** `getReportSummary`: the summary when every query the endpoint issues is
      answered, and otherwise a 500 carrying only a message and the error of
      the first query, in program order, that rejects; never a partial
      summary. */
  function GetReportSummary(db: Snapshot, fault: Query -> Option<string>): (r: Response)
    ensures r.Ok? <==> AllAnswered(fault, Issued(db))
    ensures r.ServerError? ==> r.code == 500 && r.message == FailureMessage
    ensures r.ServerError? ==> exists k :: FirstRejected(fault, Issued(db), k, r.error)
    ensures r.Ok? ==> SummaryOf(db, r.summary)
  {
    ComputeSpec(db, fault);
    match Compute(db, fault)
    case Success(s) => Ok(s)
    case Failure(msg) => ServerError(500, FailureMessage, msg)
  }

  /** What a successful summary says about the store's contents. */
  ghost predicate SummaryOf(db: Snapshot, s: Summary)
  {
    && s.totalElections == |db.elections|
    && s.totalVotes == |db.votes|
    && s.totalUsers == db.userCount
    && s.voted == |Elements(Voters(db.votes))|
    && s.voted + s.notVoted == s.totalUsers
    && s.voterTurnout == Turnout(s.voted, s.totalUsers)
    && |s.elections| == |db.elections|
    && forall i :: 0 <= i < |db.elections| ==>
         && s.elections[i].id == db.elections[i].id
         && s.elections[i].name == db.elections[i].name
         && s.elections[i].status == db.elections[i].status
         && s.elections[i].votes == VotesOf(db.votes, db.elections[i].id)
         && s.elections[i].turnout == Turnout(s.elections[i].votes, s.totalUsers)
  }

  lemma ComputeSpec(db: Snapshot, fault: Query -> Option<string>)
    ensures Compute(db, fault).Success? <==> AllAnswered(fault, Issued(db))
    ensures Compute(db, fault).Success? ==> SummaryOf(db, Compute(db, fault).value)
    ensures Compute(db, fault).Failure? ==>
      exists k :: FirstRejected(fault, Issued(db), k, Compute(db, fault).error)
  {
    AnsweredParts(db, fault);
    if Compute(db, fault).Success? {
      DistinctCountsValues(Voters(db.votes));
    } else {
      ComputeFailureIsIssued(db, fault);
    }
  }

  /** Every query is answered exactly when the four leading queries, the
      per-election counts and the distinct-voters query all are. */
  lemma AnsweredParts(db: Snapshot, fault: Query -> Option<string>)
    ensures AllAnswered(fault, Issued(db)) <==>
      && fault(CountElections).None? && fault(CountVotes).None? && fault(CountUsers).None?
      && fault(FindElections).None? && AllAnswered(fault, CountQueries(db.elections))
      && fault(DistinctVoters).None?
  {
    var qs := Issued(db);
    var counts := CountQueries(db.elections);
    var n := |counts|;
    assert qs[0] == CountElections && qs[1] == CountVotes && qs[2] == CountUsers && qs[3] == FindElections;
    assert qs[4 + n] == DistinctVoters;
    assert forall k :: 0 <= k < n ==> qs[4 + k] == counts[k];
    if AllAnswered(fault, qs) {
      assert AllAnswered(fault, counts);
    }
  }

  /** A failed computation carries the message of the first issued query
      that rejects: the awaits run one after another, so nothing after that
      query is issued. */
  lemma ComputeFailureIsIssued(db: Snapshot, fault: Query -> Option<string>)
    requires Compute(db, fault).Failure?
    ensures exists k :: FirstRejected(fault, Issued(db), k, Compute(db, fault).error)
  {
    var qs := Issued(db);
    var n := |db.elections|;
    var msg := Compute(db, fault).error;
    assert qs[0] == CountElections && qs[1] == CountVotes && qs[2] == CountUsers && qs[3] == FindElections;
    if fault(CountElections).Some? {
      assert FirstRejected(fault, qs, 0, msg);
    } else if fault(CountVotes).Some? {
      assert FirstRejected(fault, qs, 1, msg);
    } else if fault(CountUsers).Some? {
      assert FirstRejected(fault, qs, 2, msg);
    } else if fault(FindElections).Some? {
      assert FirstRejected(fault, qs, 3, msg);
    } else {
      var counts := CountQueries(db.elections);
      assert forall i :: 0 <= i < n ==> qs[4 + i] == counts[i];
      var st := ElectionStats(db, fault, db.elections, db.userCount);
      if st.Success? {
        assert qs[4 + n] == DistinctVoters;
        assert FirstRejected(fault, qs, 4 + n, msg);
      } else {
        var k := StatsFailureIsIssued(db, fault, db.elections, db.userCount);
        assert FirstRejected(fault, qs, 4 + k, msg);
      }
    }
  }

  /** A failed per-election step carries the message of the first election's
      count query, in list order, that rejects; it sits at position `k`. */
  lemma {:induction false} StatsFailureIsIssued(db: Snapshot, fault: Query -> Option<string>, es: seq<ElectionDoc>, totalUsers: nat)
    returns (k: int)
    ensures ElectionStats(db, fault, es, totalUsers).Failure? ==>
      FirstRejected(fault, CountQueries(es), k, ElectionStats(db, fault, es, totalUsers).error)
  {
    if |es| == 0 {
      k := -1;
    } else if fault(CountVotesOf(es[0].id)).Some? {
      k := 0;
    } else {
      var j := StatsFailureIsIssued(db, fault, es[1..], totalUsers);
      k := j + 1;
      if ElectionStats(db, fault, es[1..], totalUsers).Failure? {
        forall i | 1 <= i < |es|
          ensures CountQueries(es)[i] == CountQueries(es[1..])[i - 1]
        {
          assert es[1..][i - 1] == es[i];
        }
      }
    }
  }

  // ---------------------------------------------------------------------------
  // properties of the summary

  /** With no users every turnout is 0: the guard prevents dividing by zero. */
  lemma NoUsersNoTurnout(db: Snapshot, fault: Query -> Option<string>)
    requires db.userCount == 0
    ensures GetReportSummary(db, fault).Ok? ==> var s := GetReportSummary(db, fault).summary;
      && s.voterTurnout == 0
      && forall i :: 0 <= i < |s.elections| ==> s.elections[i].turnout == 0
  {
  }

  /** Each election's turnout is a percentage when its votes do not exceed
      the number of users. */
  lemma TurnoutIsPercentage(db: Snapshot, fault: Query -> Option<string>, i: int)
    requires 0 <= i < |db.elections|
    requires VotesOf(db.votes, db.elections[i].id) <= db.userCount
    ensures GetReportSummary(db, fault).Ok? ==> GetReportSummary(db, fault).summary.elections[i].turnout <= 100
  {
    TurnoutAtMostHundred(VotesOf(db.votes, db.elections[i].id), db.userCount);
  }

  /** Voted and not-voted add up to the users; not-voted is negative exactly
      when more distinct users voted than there are user documents; and no
      more users voted than there are votes. */
  lemma VotedSplitsUsers(db: Snapshot, fault: Query -> Option<string>)
    ensures GetReportSummary(db, fault).Ok? ==> var s := GetReportSummary(db, fault).summary;
      && s.voted + s.notVoted == s.totalUsers
      && (s.notVoted < 0 <==> s.voted > db.userCount)
      && s.voted <= s.totalVotes
      && (s.voted <= s.totalUsers ==> s.voterTurnout <= 100)
  {
    var r := GetReportSummary(db, fault);
    if r.Ok? {
      VotedSplitsUsersOk(db, r.summary);
    }
  }

  lemma VotedSplitsUsersOk(db: Snapshot, s: Summary)
    requires SummaryOf(db, s)
    ensures && s.voted + s.notVoted == s.totalUsers
      && (s.notVoted < 0 <==> s.voted > db.userCount)
      && s.voted <= s.totalVotes
      && (s.voted <= s.totalUsers ==> s.voterTurnout <= 100)
  {
    var voters := Voters(db.votes);
    DistinctCountsValues(voters);
    assert s.voted == |Distinct(voters)| <= |voters| == s.totalVotes;
    if s.voted <= s.totalUsers {
      TurnoutAtMostHundred(s.voted, s.totalUsers);
    }
  }

  /** The number of votes referencing any of `ids`. */
  function VotesOfAny(votes: seq<VoteDoc>, ids: seq<string>): (n: nat)
  {
    |Filter(votes, (v: VoteDoc) => v.election in ids)|
  }

  /** Summing per-election counts over distinct ids counts each vote at most
      once. */
  lemma {:induction false} CountsOverDistinctIds(votes: seq<VoteDoc>, ids: seq<string>)
    requires NoDuplicates(ids)
    ensures Sum(ids, (id: string) => VotesOf(votes, id)) == VotesOfAny(votes, ids)
  {
    var any := (v: VoteDoc) => v.election in ids;
    if |ids| == 0 {
      FilterKeepsNone(votes, any);
    } else {
      var rest := ids[1..];
      CountsOverDistinctIds(votes, rest);
      var p := (v: VoteDoc) => v.election == ids[0];
      var q := (v: VoteDoc) => v.election in rest;
      assert forall v: VoteDoc :: !(p(v) && q(v)) by {
        forall k | 0 <= k < |rest|
          ensures rest[k] != ids[0]
        {
          assert rest[k] == ids[k + 1];
        }
      }
      assert forall x :: x in ids <==> x == ids[0] || x in rest by {
        assert ids == [ids[0]] + rest;
      }
      FilterDisjointCount(votes, p, q, any);
      FilterAgrees(votes, p, (v: VoteDoc) => v.election == ids[0]);
      assert VotesOf(votes, ids[0]) == |Filter(votes, p)|;
      assert VotesOfAny(votes, rest) == |Filter(votes, q)|;
      assert VotesOfAny(votes, ids) == |Filter(votes, any)|;
    }
  }

  /** The election ids of the summary's entries. */
  function StatIds(stats: seq<ElectionStat>): (ids: seq<string>)
    ensures |ids| == |stats|
    ensures forall k :: 0 <= k < |stats| ==> ids[k] == stats[k].id
  {
    if |stats| == 0 then [] else [stats[0].id] + StatIds(stats[1..])
  }

  lemma {:induction false} SumOverStats(stats: seq<ElectionStat>, votes: seq<VoteDoc>)
    requires forall k :: 0 <= k < |stats| ==> stats[k].votes == VotesOf(votes, stats[k].id)
    ensures Sum(stats, (s: ElectionStat) => s.votes) == Sum(StatIds(stats), (id: string) => VotesOf(votes, id))
  {
    if |stats| > 0 {
      SumOverStats(stats[1..], votes);
      assert StatIds(stats)[1..] == StatIds(stats[1..]);
    }
  }

  /** With distinct election ids, the per-election vote counts add up to at
      most the total number of votes. */
  lemma PerElectionVotesWithinTotal(db: Snapshot, fault: Query -> Option<string>)
    requires forall i, j :: 0 <= i < j < |db.elections| ==> db.elections[i].id != db.elections[j].id
    ensures GetReportSummary(db, fault).Ok? ==> var s := GetReportSummary(db, fault).summary;
      Sum(s.elections, (e: ElectionStat) => e.votes) <= s.totalVotes
  {
    var r := GetReportSummary(db, fault);
    if r.Ok? {
      PerElectionVotesWithinTotalOk(db, r.summary);
    }
  }

  lemma PerElectionVotesWithinTotalOk(db: Snapshot, s: Summary)
    requires SummaryOf(db, s)
    requires forall i, j :: 0 <= i < j < |db.elections| ==> db.elections[i].id != db.elections[j].id
    ensures Sum(s.elections, (e: ElectionStat) => e.votes) <= s.totalVotes
  {
    var ids := StatIds(s.elections);
    assert NoDuplicates(ids) by {
      forall i, j | 0 <= i < j < |ids|
        ensures ids[i] != ids[j]
      {
        assert ids[i] == db.elections[i].id && ids[j] == db.elections[j].id;
      }
    }
    SumOverStats(s.elections, db.votes);
    CountsOverDistinctIds(db.votes, ids);
  }

  /** A rejected query anywhere yields the 500 response and no summary. */
  lemma AnyFaultFailsWholly(db: Snapshot, fault: Query -> Option<string>, k: int)
    requires 0 <= k < |Issued(db)|
    requires fault(Issued(db)[k]).Some?
    ensures GetReportSummary(db, fault).ServerError?
    ensures GetReportSummary(db, fault).code == 500
  {
  }

  /** The error the 500 carries is the message of the first issued query that
      rejects, whatever later queries would have answered. */
  lemma FirstRejectionIsReported(db: Snapshot, fault: Query -> Option<string>, k: int)
    requires 0 <= k < |Issued(db)|
    requires fault(Issued(db)[k]).Some?
    requires forall j :: 0 <= j < k ==> fault(Issued(db)[j]).None?
    ensures GetReportSummary(db, fault).ServerError?
    ensures GetReportSummary(db, fault).error == fault(Issued(db)[k]).value
  {
    var r := GetReportSummary(db, fault);
    var first :| FirstRejected(fault, Issued(db), first, r.error);
    assert !(first < k) && !(k < first);
  }

  /** Three votes for election "a" and seven for "b", by 10 users. */
  const ExampleVotesA := [VoteDoc("a", "u1"), VoteDoc("a", "u2"), VoteDoc("a", "u3")]
  const ExampleVotesB := [VoteDoc("b", "u1"), VoteDoc("b", "u2"), VoteDoc("b", "u3"), VoteDoc("b", "u4"),
                          VoteDoc("b", "u5"), VoteDoc("b", "u6"), VoteDoc("b", "u7")]
  const ExampleStore := Snapshot([ElectionDoc("a", Some("A"), Active), ElectionDoc("b", Some("B"), Completed)],
                                 ExampleVotesA + ExampleVotesB, 10)

  /** The worked example: turnouts 30 and 70, 10 votes, 2 elections. */
  lemma TwoElectionExample(db: Snapshot)
    requires db == ExampleStore
    ensures GetReportSummary(db, NoFaults).Ok?
    ensures var s := GetReportSummary(db, NoFaults).summary;
      && s.totalElections == 2
      && s.totalVotes == 10
      && s.elections[0].turnout == 30
      && s.elections[1].turnout == 70
  {
    ExampleAnswered(db);
    ExampleCounts(db.votes);
    SummaryTurnouts(db, NoFaults, 3, 7);
  }

  lemma ExampleAnswered(db: Snapshot)
    requires db == ExampleStore
    ensures AllAnswered(NoFaults, Issued(db))
  {
  }

  lemma ExampleCounts(votes: seq<VoteDoc>)
    requires votes == ExampleVotesA + ExampleVotesB
    ensures VotesOf(votes, "a") == 3 && VotesOf(votes, "b") == 7
  {
    ExampleCountA();
    ExampleCountB();
    ExampleCountSplits(votes, "a", 3, 0);
    ExampleCountSplits(votes, "b", 0, 7);
  }

  lemma ExampleCountSplits(votes: seq<VoteDoc>, id: string, x: nat, y: nat)
    requires votes == ExampleVotesA + ExampleVotesB
    requires VotesOf(ExampleVotesA, id) == x && VotesOf(ExampleVotesB, id) == y
    ensures VotesOf(votes, id) == x + y
  {
    VotesOfAppend(ExampleVotesA, ExampleVotesB, id);
  }

  lemma ExampleCountA()
    ensures VotesOf(ExampleVotesA, "a") == 3 && VotesOf(ExampleVotesA, "b") == 0
  {
    FilterByElection(ExampleVotesA, "a", 3);
    FilterByElection(ExampleVotesA, "b", 0);
  }

  lemma ExampleCountB()
    ensures VotesOf(ExampleVotesB, "a") == 0 && VotesOf(ExampleVotesB, "b") == 7
  {
    FilterByElection(ExampleVotesB, "a", 0);
    FilterByElection(ExampleVotesB, "b", 7);
  }

  lemma SummaryTurnouts(db: Snapshot, fault: Query -> Option<string>, x: nat, y: nat)
    requires AllAnswered(fault, Issued(db))
    requires |db.elections| == 2 && |db.votes| == 10 && db.userCount == 10
    requires VotesOf(db.votes, db.elections[0].id) == x && VotesOf(db.votes, db.elections[1].id) == y
    ensures GetReportSummary(db, fault).Ok?
    ensures var s := GetReportSummary(db, fault).summary;
      && s.totalElections == 2
      && s.totalVotes == 10
      && s.elections[0].turnout == Turnout(x, 10)
      && s.elections[1].turnout == Turnout(y, 10)
  {
  }

  /** A store whose every query is answered. */
  function NoFaults(q: Query): Option<string>
  {
    None
  }

  lemma FilterByElection(vs: seq<VoteDoc>, id: string, n: nat)
    requires n == 0 ==> forall k :: 0 <= k < |vs| ==> vs[k].election != id
    requires n > 0 ==> |vs| == n && forall k :: 0 <= k < |vs| ==> vs[k].election == id
    ensures VotesOf(vs, id) == n
  {
    if |vs| > 0 {
      FilterByElection(vs[1..], id, if n == 0 then 0 else n - 1);
    }
  }
}

=== FILE: reports_view.dfy ===
/** The admin reports view: what it derives from the report summary it
    fetched — the name search, the CSV export, the status badge, the "top"
    cards (candidate, department, last election), the status counts and the
    invalid/spoiled vote totals. The view also reads fields the endpoint never
    sends (candidates, creation and start/end dates, invalid and spoiled
    votes, departments); they are optional here. */
module ReportsView {
  import opened Wrappers
  import opened Seqs
  import opened Text
  import opened Domain
  import ReportController

  datatype Candidate = Candidate(name: string, votes: int)

  datatype Department = Department(department: string, turnout: int)

  /** One entry of the summary's `elections` array as the view reads it. */
  datatype ReportElection = ReportElection(
    name: Option<string>,
    status: Status,
    votes: nat,
    turnout: nat,
    startDate: DateField,
    endDate: DateField,
    createdAt: DateField,
    candidates: Option<seq<Candidate>>,
    invalidVotes: Option<int>,
    spoiledVotes: Option<int>)

  /** The summary as the view reads it. */
  datatype ReportData = ReportData(
    totalElections: nat,
    totalVotes: nat,
    totalUsers: nat,
    voterTurnout: nat,
    voted: nat,
    notVoted: int,
    elections: seq<ReportElection>,
    participationByDepartment: Option<seq<Department>>)

  /** An entry exactly as the endpoint sends it: the fields it does not send
      are absent. */
  function FromServer(s: ReportController.ElectionStat): ReportElection
  {
    ReportElection(s.name, s.status, s.votes, s.turnout, Blank, Blank, Blank, None, None, None)
  }

  function FromServerAll(ss: seq<ReportController.ElectionStat>): (es: seq<ReportElection>)
    ensures |es| == |ss|
    ensures forall i :: 0 <= i < |ss| ==> es[i] == FromServer(ss[i])
  {
    if |ss| == 0 then [] else [FromServer(ss[0])] + FromServerAll(ss[1..])
  }

  /** The summary exactly as the endpoint sends it. */
  function FromSummary(s: ReportController.Summary): ReportData
  {
    ReportData(s.totalElections, s.totalVotes, s.totalUsers, s.voterTurnout, s.voted, s.notVoted,
               FromServerAll(s.elections), None)
  }

  // ---------------------------------------------------------------------------
  // search

  /** `typeof e?.name === "string" && e.name.toLowerCase().includes(search.toLowerCase())`. */
  predicate NameMatches(search: string, e: ReportElection)
  {
    e.name.Some? && MatchesSearch(e.name.value, search)
  }

  /** The search effect: without loaded data the list on display stays;
      otherwise it becomes the loaded elections whose name matches. */
  function SearchEffect(stats: Option<ReportData>, search: string, shown: seq<ReportElection>)
    : (r: seq<ReportElection>)
    ensures stats.None? ==> r == shown
    ensures stats.Some? ==> |r| <= |stats.value.elections|
    ensures stats.Some? ==> forall k :: 0 <= k < |r| ==> r[k].name.Some? && NameMatches(search, r[k])
    ensures stats.Some? ==> forall i :: 0 <= i < |stats.value.elections| && NameMatches(search, stats.value.elections[i])
                              ==> stats.value.elections[i] in r
  {
    match stats
    case None => shown
    case Some(d) => Filter(d.elections, (e: ReportElection) => NameMatches(search, e))
  }

  /** The search result is an order-preserving subsequence of the loaded
      elections, keeping exactly the positions whose name matches. */
  lemma SearchKeepsOrder(d: ReportData, search: string, shown: seq<ReportElection>) returns (idx: seq<int>)
    ensures SelectedBy(SearchEffect(Some(d), search, shown), d.elections, idx)
    ensures forall i :: 0 <= i < |d.elections| ==> (i in idx <==> NameMatches(search, d.elections[i]))
  {
    idx := FilterSelectsExactly(d.elections, (e: ReportElection) => NameMatches(search, e));
  }

  /** Even with an empty search box the table drops every election without
      a textual name; with a name it keeps it. */
  lemma EmptySearchKeepsNamed(d: ReportData, shown: seq<ReportElection>, i: int)
    requires 0 <= i < |d.elections|
    ensures d.elections[i] in SearchEffect(Some(d), "", shown) <==> d.elections[i].name.Some?
  {
    if d.elections[i].name.Some? {
      EmptyTermMatches(d.elections[i].name.value);
    }
  }

  // ---------------------------------------------------------------------------
  // CSV export

  const CsvHeader: seq<string> := ["Election", "Status", "Start Date", "End Date", "Votes", "Turnout (%)"]

  function Quote(s: string): string
  {
    "\"" + s + "\""
  }

  /** `${e.name}`: a missing name prints as "undefined". */
  function NameText(name: Option<string>): string
  {
    match name
    case Some(n) => n
    case None => "undefined"
  }

  /** A date cell: the quoted locale date of a filled-in field, else empty
      (a `null` date is falsy too). `localeDate` stands for
      `toLocaleDateString`. */
  function DateCell(d: DateField, localeDate: Instant -> string): string
  {
    if IsFilledIn(d) then Quote(localeDate(d.parsed)) else ""
  }

  /** The six cells of an election's row. */
  function CsvCells(e: ReportElection, localeDate: Instant -> string): (cells: seq<string>)
    ensures |cells| == |CsvHeader| == 6
  {
    [Quote(NameText(e.name)), Quote(StatusText(e.status)),
     DateCell(e.startDate, localeDate), DateCell(e.endDate, localeDate),
     Decimal(e.votes), Decimal(e.turnout)]
  }

  /** `[headers, ...rows].map(row => row.join(","))`. */
  function CsvLines(es: seq<ReportElection>, localeDate: Instant -> string): (lines: seq<string>)
    ensures |lines| == |es| + 1
    ensures lines[0] == Join(CsvHeader, ',')
    ensures forall k :: 0 <= k < |es| ==> lines[k + 1] == Join(CsvCells(es[k], localeDate), ',')
  {
    [Join(CsvHeader, ',')] + seq(|es|, k requires 0 <= k < |es| => Join(CsvCells(es[k], localeDate), ','))
  }

  datatype Export = NoData | Csv(content: string)

  /** `handleExportCSV`: "No Data" for an empty list, otherwise the lines
      joined by newlines. */
  function ExportCsv(es: seq<ReportElection>, localeDate: Instant -> string): (r: Export)
    ensures r.NoData? <==> |es| == 0
  {
    if |es| == 0 then NoData else Csv(Join(CsvLines(es, localeDate), '\n'))
  }

  /** No cell text of the election contains `c` (digits never do). */
  ghost predicate CellsAvoid(e: ReportElection, localeDate: Instant -> string, c: char)
  {
    && c !in NameText(e.name)
    && c !in StatusText(e.status)
    && (IsFilledIn(e.startDate) ==> c !in localeDate(e.startDate.parsed))
    && (IsFilledIn(e.endDate) ==> c !in localeDate(e.endDate.parsed))
  }

  lemma CellsAvoidChar(e: ReportElection, localeDate: Instant -> string, c: char)
    requires CellsAvoid(e, localeDate, c)
    requires c != '"' && !IsDigit(c)
    ensures forall k :: 0 <= k < 6 ==> c !in CsvCells(e, localeDate)[k]
  {
    var cells := CsvCells(e, localeDate);
    assert forall k :: 0 <= k < |Decimal(e.votes)| ==> Decimal(e.votes)[k] != c;
    assert forall k :: 0 <= k < |Decimal(e.turnout)| ==> Decimal(e.turnout)[k] != c;
  }

  /** Read back line by line, an export of `n` elections is one header line
      and then one line per election, in order, provided no cell text holds a
      line break. */
  lemma ExportLines(es: seq<ReportElection>, localeDate: Instant -> string)
    requires |es| > 0
    requires forall k :: 0 <= k < |es| ==> CellsAvoid(es[k], localeDate, '\n')
    ensures var lines := Split(ExportCsv(es, localeDate).content, '\n');
      && |lines| == |es| + 1
      && lines[0] == Join(CsvHeader, ',')
      && forall k :: 0 <= k < |es| ==> lines[k + 1] == Join(CsvCells(es[k], localeDate), ',')
  {
    var lines := CsvLines(es, localeDate);
    forall k | 0 <= k < |lines|
      ensures '\n' !in lines[k]
    {
      if k == 0 {
        JoinAvoids(CsvHeader, ',', '\n');
      } else {
        CellsAvoidChar(es[k - 1], localeDate, '\n');
        JoinAvoids(CsvCells(es[k - 1], localeDate), ',', '\n');
      }
    }
    SplitJoin(lines, '\n');
  }

  /** Each exported row splits back into its six cells when no cell text
      holds a comma. */
  lemma RowFields(e: ReportElection, localeDate: Instant -> string)
    requires CellsAvoid(e, localeDate, ',')
    ensures Split(Join(CsvCells(e, localeDate), ','), ',') == CsvCells(e, localeDate)
    ensures |Split(Join(CsvCells(e, localeDate), ','), ',')| == 6
  {
    CellsAvoidChar(e, localeDate, ',');
    SplitJoin(CsvCells(e, localeDate), ',');
  }

  // ---------------------------------------------------------------------------
  // status badge and status counts

  datatype Badge = SuccessBadge | PrimaryBadge | SecondaryBadge

  /** `getStatusBadge`: the badge is chosen by the status text, green for
      "completed", blue for "active" and "ongoing", grey for the rest. */
  function StatusBadge(s: Status): (b: Badge)
    ensures b == SuccessBadge <==> StatusText(s) == "completed"
    ensures b == PrimaryBadge <==> StatusText(s) == "active" || StatusText(s) == "ongoing"
  {
    if s == Completed then SuccessBadge
    else if s == Active || s == Ongoing then PrimaryBadge
    else SecondaryBadge
  }

  predicate IsCompleted(e: ReportElection) { e.status == Completed }
  predicate IsOngoing(e: ReportElection) { e.status == Active || e.status == Ongoing }
  predicate IsUpcoming(e: ReportElection) { e.status == Upcoming }
  predicate CompletedOrOngoing(e: ReportElection) { IsCompleted(e) || IsOngoing(e) }
  predicate Counted(e: ReportElection) { CompletedOrOngoing(e) || IsUpcoming(e) }

  /** The "Complete", "Ongoing" and "Upcoming" cards. */
  datatype StatusCounts = StatusCounts(completed: nat, ongoing: nat, upcoming: nat)

  /** The three cards count disjoint sets of elections, so together they
      never exceed the number of elections. */
  function CountStatuses(es: seq<ReportElection>): (c: StatusCounts)
    ensures c.completed + c.ongoing + c.upcoming == |Filter(es, Counted)| <= |es|
    ensures c.completed == |PositionsWhere(es, IsCompleted)|
    ensures c.ongoing == |PositionsWhere(es, IsOngoing)|
    ensures c.upcoming == |PositionsWhere(es, IsUpcoming)|
  {
    FilterDisjointCount(es, IsCompleted, IsOngoing, CompletedOrOngoing);
    FilterDisjointCount(es, CompletedOrOngoing, IsUpcoming, Counted);
    FilterCountsPositions(es, IsCompleted);
    FilterCountsPositions(es, IsOngoing);
    FilterCountsPositions(es, IsUpcoming);
    StatusCounts(|Filter(es, IsCompleted)|, |Filter(es, IsOngoing)|, |Filter(es, IsUpcoming)|)
  }

  predicate ShowsSuccess(e: ReportElection) { StatusBadge(e.status) == SuccessBadge }
  predicate ShowsPrimary(e: ReportElection) { StatusBadge(e.status) == PrimaryBadge }

  /** The badges agree with the cards: the "Complete" card counts the rows
      with a success badge and the "Ongoing" card those with a primary one. */
  lemma BadgesMatchCards(es: seq<ReportElection>)
    ensures CountStatuses(es).completed == |Filter(es, ShowsSuccess)|
    ensures CountStatuses(es).ongoing == |Filter(es, ShowsPrimary)|
  {
    FilterAgrees(es, IsCompleted, ShowsSuccess);
    FilterAgrees(es, IsOngoing, ShowsPrimary);
  }

  // ---------------------------------------------------------------------------
  // invalid and spoiled votes

  function InvalidOf(e: ReportElection): int { e.invalidVotes.GetOr(0) }
  function SpoiledOf(e: ReportElection): int { e.spoiledVotes.GetOr(0) }

  /** `reduce((sum, e) => sum + (e.invalidVotes || 0), 0)`: with no negative
      count the total is non-negative and at least each election's own count;
      with no count at all it is 0. */
  function TotalInvalidVotes(es: seq<ReportElection>): (total: int)
    ensures (forall k :: 0 <= k < |es| ==> es[k].invalidVotes.Some? ==> es[k].invalidVotes.value >= 0) ==>
      total >= 0 && forall k :: 0 <= k < |es| ==> InvalidOf(es[k]) <= total
    ensures (forall k :: 0 <= k < |es| ==> es[k].invalidVotes.None?) ==> total == 0
  {
    NonNegativeCounts(es, InvalidOf);
    Sum(es, InvalidOf)
  }

  /** `reduce((sum, e) => sum + (e.spoiledVotes || 0), 0)`, with the same
      bounds as the invalid total. */
  function TotalSpoiledVotes(es: seq<ReportElection>): (total: int)
    ensures (forall k :: 0 <= k < |es| ==> es[k].spoiledVotes.Some? ==> es[k].spoiledVotes.value >= 0) ==>
      total >= 0 && forall k :: 0 <= k < |es| ==> SpoiledOf(es[k]) <= total
    ensures (forall k :: 0 <= k < |es| ==> es[k].spoiledVotes.None?) ==> total == 0
  {
    NonNegativeCounts(es, SpoiledOf);
    Sum(es, SpoiledOf)
  }

  /** The facts behind both totals' contracts, for any per-election count. */
  lemma NonNegativeCounts(es: seq<ReportElection>, f: ReportElection -> int)
    ensures (forall k :: 0 <= k < |es| ==> f(es[k]) >= 0) ==>
      Sum(es, f) >= 0 && forall k :: 0 <= k < |es| ==> f(es[k]) <= Sum(es, f)
    ensures (forall k :: 0 <= k < |es| ==> f(es[k]) == 0) ==> Sum(es, f) == 0
  {
    if forall k :: 0 <= k < |es| ==> f(es[k]) >= 0 {
      SumOfNonNegative(es, f);
    }
    if forall k :: 0 <= k < |es| ==> f(es[k]) == 0 {
      SumOfZeros(es, f);
    }
  }

  /** A present count adds itself to the total, a missing one adds 0. */
  lemma TotalsSplit(xs: seq<ReportElection>, ys: seq<ReportElection>, e: ReportElection)
    ensures TotalInvalidVotes([e]) == e.invalidVotes.GetOr(0)
    ensures TotalSpoiledVotes([e]) == e.spoiledVotes.GetOr(0)
    ensures TotalInvalidVotes(xs + ys) == TotalInvalidVotes(xs) + TotalInvalidVotes(ys)
    ensures TotalSpoiledVotes(xs + ys) == TotalSpoiledVotes(xs) + TotalSpoiledVotes(ys)
  {
    assert [e][1..] == [];
    assert Sum([e], InvalidOf) == InvalidOf(e) + Sum([], InvalidOf);
    assert Sum([e], SpoiledOf) == SpoiledOf(e) + Sum([], SpoiledOf);
    SumAppend(xs, ys, InvalidOf);
    SumAppend(xs, ys, SpoiledOf);
  }

  // ---------------------------------------------------------------------------
  // top candidate and top department

  function CandidateVotes(c: Candidate): int { c.votes }
  function DepartmentTurnout(d: Department): int { d.turnout }

  function CandidatesOf(e: ReportElection): seq<Candidate>
  {
    e.candidates.GetOr([])
  }

  const NoCandidate := Candidate("-", 0)
  const NoDepartment := Department("-", 0)

  /** The nested `forEach` over elections and their candidates, replacing the
      best so far by a candidate with strictly more votes. */
  function MostVotedFrom(best: Candidate, es: seq<ReportElection>): Candidate
    decreases |es|
  {
    if |es| == 0 then best
    else MostVotedFrom(KeepGreater(best, CandidatesOf(es[0]), CandidateVotes), es[1..])
  }

  /** `mostVotedCandidate`, starting from `{ name: "-", votes: 0 }`: the
      placeholder or one of the candidates, with at least as many votes as
      every candidate and never fewer than 0. */
  function MostVotedCandidate(es: seq<ReportElection>): (r: Candidate)
    ensures r.votes >= 0
    ensures forall j :: 0 <= j < |AllCandidates(es)| ==> AllCandidates(es)[j].votes <= r.votes
    ensures r == NoCandidate || r in AllCandidates(es)
  {
    MostVotedIsOneScan(NoCandidate, es);
    KeepGreaterBounds(NoCandidate, AllCandidates(es), CandidateVotes);
    MostVotedFrom(NoCandidate, es)
  }

  /** All candidates of all elections, in the order the loops visit them. */
  function AllCandidates(es: seq<ReportElection>): seq<Candidate>
  {
    if |es| == 0 then [] else CandidatesOf(es[0]) + AllCandidates(es[1..])
  }

  lemma {:induction false} MostVotedIsOneScan(best: Candidate, es: seq<ReportElection>)
    ensures MostVotedFrom(best, es) == KeepGreater(best, AllCandidates(es), CandidateVotes)
    decreases |es|
  {
    if |es| > 0 {
      var next := KeepGreater(best, CandidatesOf(es[0]), CandidateVotes);
      MostVotedIsOneScan(next, es[1..]);
      KeepGreaterAppend(best, CandidatesOf(es[0]), AllCandidates(es[1..]), CandidateVotes);
    }
  }

  /** The top candidate card shows "-" with 0 votes when no candidate has a
      positive count, and otherwise the first candidate (in visiting order)
      with the most votes; its count is at least every candidate's. */
  lemma MostVotedIsFirstMaximum(es: seq<ReportElection>) returns (i: int)
    ensures var all, r := AllCandidates(es), MostVotedCandidate(es);
      && -1 <= i < |all|
      && (i == -1 <==> forall j :: 0 <= j < |all| ==> all[j].votes <= 0)
      && (i == -1 ==> r == NoCandidate)
      && (i >= 0 ==> r == all[i] && IsFirstMaximum(all, CandidateVotes, 0, i))
      && (forall j :: IsFirstMaximum(all, CandidateVotes, 0, j) ==> j == i)
      && r.votes >= 0
      && forall j :: 0 <= j < |all| ==> all[j].votes <= r.votes
  {
    MostVotedIsOneScan(NoCandidate, es);
    i := KeepGreaterFindsFirstMaximum(NoCandidate, AllCandidates(es), CandidateVotes);
    forall j | IsFirstMaximum(AllCandidates(es), CandidateVotes, 0, j)
      ensures j == i
    {
      if i >= 0 {
        FirstMaximumUnique(AllCandidates(es), CandidateVotes, 0, i, j);
      }
    }
  }

  /** `topDept`: the first department with the highest positive turnout, or
      `{ department: "-", turnout: 0 }`. */
  function TopDepartment(depts: Option<seq<Department>>): (r: Department)
    ensures r.turnout >= 0
    ensures depts.None? ==> r == NoDepartment
    ensures depts.Some? ==> forall j :: 0 <= j < |depts.value| ==> depts.value[j].turnout <= r.turnout
    ensures depts.Some? ==> r == NoDepartment || r in depts.value
  {
    match depts
    case None => NoDepartment
    case Some(ds) =>
      KeepGreaterBounds(NoDepartment, ds, DepartmentTurnout);
      KeepGreater(NoDepartment, ds, DepartmentTurnout)
  }

  lemma TopDepartmentIsFirstMaximum(ds: seq<Department>) returns (i: int)
    ensures var r := TopDepartment(Some(ds));
      && -1 <= i < |ds|
      && (i == -1 <==> forall j :: 0 <= j < |ds| ==> ds[j].turnout <= 0)
      && (i == -1 ==> r == NoDepartment)
      && (i >= 0 ==> r == ds[i] && IsFirstMaximum(ds, DepartmentTurnout, 0, i))
      && (forall j :: IsFirstMaximum(ds, DepartmentTurnout, 0, j) ==> j == i)
  {
    i := KeepGreaterFindsFirstMaximum(NoDepartment, ds, DepartmentTurnout);
    forall j | IsFirstMaximum(ds, DepartmentTurnout, 0, j)
      ensures j == i
    {
      if i >= 0 {
        FirstMaximumUnique(ds, DepartmentTurnout, 0, i, j);
      }
    }
  }

  // ---------------------------------------------------------------------------
  // last election created

  /** One step of the reduce: take `e` when nothing is held yet or when its
      creation date is strictly later (`new Date(e.createdAt) > new Date(latest.createdAt)`). */
  function LatestStep(latest: Option<ReportElection>, e: ReportElection): Option<ReportElection>
  {
    if latest.None? || Earlier(DateOf(latest.value.createdAt), DateOf(e.createdAt)) then Some(e) else latest
  }

  function ReduceLatest(latest: Option<ReportElection>, es: seq<ReportElection>): (r: Option<ReportElection>)
    ensures latest.Some? || |es| > 0 ==> r.Some?
    decreases |es|
  {
    if |es| == 0 then latest else ReduceLatest(LatestStep(latest, es[0]), es[1..])
  }

  /** `lastElection`: null for no elections, otherwise one of them. */
  function LastElection(es: seq<ReportElection>): (r: Option<ReportElection>)
    ensures r.None? <==> |es| == 0
  {
    if |es| > 0 then ReduceLatest(None, es) else None
  }

  predicate HasValidCreation(e: ReportElection)
  {
    DateOf(e.createdAt).At?
  }

  function CreatedKey(e: ReportElection): int
  {
    match DateOf(e.createdAt)
    case At(ms) => ms
    case InvalidDate => 0
  }

  lemma {:induction false} ReduceWithValidDates(latest: ReportElection, es: seq<ReportElection>)
    requires HasValidCreation(latest)
    requires forall k :: 0 <= k < |es| ==> HasValidCreation(es[k])
    ensures ReduceLatest(Some(latest), es) == Some(KeepGreater(latest, es, CreatedKey))
    decreases |es|
  {
    if |es| > 0 {
      ReduceWithValidDates(if CreatedKey(es[0]) > CreatedKey(latest) then es[0] else latest, es[1..]);
    }
  }

  /** When every creation date parses, the last election is the first one
      (in list order) whose creation date is the latest. */
  lemma LastElectionWithValidDates(es: seq<ReportElection>) returns (i: int)
    requires |es| > 0
    requires forall k :: 0 <= k < |es| ==> HasValidCreation(es[k])
    ensures 0 <= i < |es| && LastElection(es) == Some(es[i])
    ensures forall j :: 0 <= j < |es| ==> CreatedKey(es[j]) <= CreatedKey(es[i])
    ensures forall j :: 0 <= j < i ==> CreatedKey(es[j]) < CreatedKey(es[i])
  {
    var tail := es[1..];
    ReduceWithValidDates(es[0], tail);
    var t := KeepGreaterFindsFirstMaximum(es[0], tail, CreatedKey);
    if t == -1 {
      i := 0;
      forall j | 1 <= j < |es|
        ensures CreatedKey(es[j]) <= CreatedKey(es[0])
      {
        assert es[j] == tail[j - 1];
      }
    } else {
      i := t + 1;
      forall j | 1 <= j < |es|
        ensures CreatedKey(es[j]) <= CreatedKey(es[i])
        ensures j < i ==> CreatedKey(es[j]) < CreatedKey(es[i])
      {
        assert es[j] == tail[j - 1];
      }
    }
  }

  lemma {:induction false} InvalidLatestStays(latest: ReportElection, es: seq<ReportElection>)
    requires !HasValidCreation(latest)
    ensures ReduceLatest(Some(latest), es) == Some(latest)
    decreases |es|
  {
    if |es| > 0 {
      InvalidLatestStays(latest, es[1..]);
    }
  }

  /** A first election whose creation date is missing (`undefined`) or does
      not parse is always the "last election": no later date compares greater
      than an invalid one. A `null` date is not such a date (see
      `NullCreationIsEpoch`). */
  lemma UndatedFirstElectionWins(es: seq<ReportElection>)
    requires |es| > 0 && !HasValidCreation(es[0])
    ensures LastElection(es) == Some(es[0])
  {
    InvalidLatestStays(es[0], es[1..]);
  }

  lemma {:induction false} ReduceFromDated(latest: ReportElection, es: seq<ReportElection>)
    requires HasValidCreation(latest)
    ensures var r := ReduceLatest(Some(latest), es).value;
      && HasValidCreation(r)
      && CreatedKey(latest) <= CreatedKey(r)
      && forall k :: 0 <= k < |es| && HasValidCreation(es[k]) ==> CreatedKey(es[k]) <= CreatedKey(r)
    decreases |es|
  {
    if |es| > 0 {
      var next := LatestStep(Some(latest), es[0]).value;
      ReduceFromDated(next, es[1..]);
      forall k | 1 <= k < |es|
        ensures es[k] == es[1..][k - 1]
      {
      }
    }
  }

  /** When the first election's creation date parses (a `null` date counts,
      as the epoch), the last election carries a parseable date no earlier
      than any parseable creation date in the list. */
  lemma DatedFirstElectionFindsLatest(es: seq<ReportElection>)
    requires |es| > 0 && HasValidCreation(es[0])
    ensures var r := LastElection(es).value;
      && HasValidCreation(r)
      && forall k :: 0 <= k < |es| && HasValidCreation(es[k]) ==> CreatedKey(es[k]) <= CreatedKey(r)
  {
    ReduceFromDated(es[0], es[1..]);
    forall k | 1 <= k < |es|
      ensures es[k] == es[1..][k - 1]
    {
    }
  }

  /** `new Date(null)` is the epoch, not the invalid date: a first election
      created at `null` gives way to any election created after 1970. */
  lemma NullCreationIsEpoch(es: seq<ReportElection>, j: int)
    requires |es| > 0 && es[0].createdAt == Null
    requires 0 <= j < |es| && HasValidCreation(es[j]) && CreatedKey(es[j]) > 0
    ensures LastElection(es) != Some(es[0])
  {
    DatedFirstElectionFindsLatest(es);
  }

  lemma {:induction false} ReduceKeepsDatedOrStart(latest: ReportElection, es: seq<ReportElection>)
    ensures var r := ReduceLatest(Some(latest), es).value;
      r == latest || (r in es && HasValidCreation(r))
    decreases |es|
  {
    if |es| > 0 {
      var next := LatestStep(Some(latest), es[0]).value;
      ReduceKeepsDatedOrStart(next, es[1..]);
    }
  }

  /** The last election is the first election or one whose creation date
      parses. */
  lemma LastElectionIsFirstOrDated(es: seq<ReportElection>)
    requires |es| > 0
    ensures var r := LastElection(es).value;
      r == es[0] || (r in es && HasValidCreation(r))
  {
    ReduceKeepsDatedOrStart(es[0], es[1..]);
  }

  // ---------------------------------------------------------------------------
  // what the view shows for the endpoint's own data

  /** Fed the endpoint's summary, the derived cards show their defaults:
      no invalid or spoiled votes, "-" as top candidate and department, and
      the first election as the last one created (no creation dates). */
  lemma ServerSummaryCards(s: ReportController.Summary)
    ensures var d := FromSummary(s);
      && TotalInvalidVotes(d.elections) == 0
      && TotalSpoiledVotes(d.elections) == 0
      && MostVotedCandidate(d.elections) == NoCandidate
      && TopDepartment(d.participationByDepartment) == NoDepartment
      && LastElection(d.elections) == (if |d.elections| == 0 then None else Some(d.elections[0]))
  {
    var es := FromSummary(s).elections;
    NoCandidatesFromServer(es);
    MostVotedIsOneScan(NoCandidate, es);
    if |es| > 0 {
      UndatedFirstElectionWins(es);
    }
  }

  lemma {:induction false} NoCandidatesFromServer(es: seq<ReportElection>)
    requires forall k :: 0 <= k < |es| ==> es[k].candidates.None?
    ensures AllCandidates(es) == []
  {
    if |es| > 0 {
      NoCandidatesFromServer(es[1..]);
    }
  }
}

=== FILE: seqs.dfy ===
/** The array operations the views and the controller take from
    `Array.prototype`: `filter`, a `reduce` that sums, a `forEach` that keeps
    the first strictly greatest element, and the de-duplication behind a
    document store's `distinct` query. Each comes with the independent
    description that the model's properties are stated against. */
module Seqs {

  // ---------------------------------------------------------------------------
  // filter

  /** `xs.filter(keep)`: the elements that satisfy `keep`, in their order. */
  function Filter<T>(xs: seq<T>, keep: T -> bool): (r: seq<T>)
    ensures |r| <= |xs|
    ensures forall k :: 0 <= k < |r| ==> keep(r[k])
    ensures forall k :: 0 <= k < |r| ==> r[k] in xs
    ensures forall i :: 0 <= i < |xs| && keep(xs[i]) ==> xs[i] in r
  {
    if |xs| == 0 then []
    else
      if keep(xs[0]) then [xs[0]] + Filter(xs[1..], keep) else Filter(xs[1..], keep)
  }

  /** `idx` lists strictly increasing positions of `xs` whose elements, in that
      order, are exactly `r`: `r` is an order-preserving subsequence of `xs`. */
  ghost predicate SelectedBy<T>(r: seq<T>, xs: seq<T>, idx: seq<int>)
  {
    && |idx| == |r|
    && (forall k :: 0 <= k < |idx| ==> 0 <= idx[k] < |xs| && r[k] == xs[idx[k]])
    && (forall k, l :: 0 <= k < l < |idx| ==> idx[k] < idx[l])
  }

  /** Positions into `xs[1..]` shifted by one are positions into `xs`. */
  function Shifted(idx: seq<int>): (r: seq<int>)
    ensures |r| == |idx|
    ensures forall k :: 0 <= k < |r| ==> r[k] == idx[k] + 1
  {
    seq(|idx|, k requires 0 <= k < |idx| => idx[k] + 1)
  }

  lemma ShiftedSelection<T>(r: seq<T>, xs: seq<T>, idx: seq<int>)
    requires |xs| > 0
    requires SelectedBy(r, xs[1..], idx)
    ensures SelectedBy(r, xs, Shifted(idx))
    ensures forall k :: 0 <= k < |idx| ==> 1 <= Shifted(idx)[k]
    ensures forall i :: 1 <= i < |xs| ==> (i in Shifted(idx) <==> i - 1 in idx)
  {
    var sh := Shifted(idx);
    forall i | 1 <= i < |xs|
      ensures i in sh <==> i - 1 in idx
    {
      if i - 1 in idx {
        var k :| 0 <= k < |idx| && idx[k] == i - 1;
        assert sh[k] == i;
      }
    }
  }

  lemma PrependSelection<T>(x: T, r: seq<T>, xs: seq<T>, idx: seq<int>)
    requires |xs| > 0 && xs[0] == x
    requires SelectedBy(r, xs, idx)
    requires forall k :: 0 <= k < |idx| ==> 1 <= idx[k]
    ensures SelectedBy([x] + r, xs, [0] + idx)
  {
  }

  /** Filtering keeps the relative order of the survivors, and the positions
      it keeps are exactly those whose element satisfies the predicate. */
  lemma {:induction false} FilterSelectsExactly<T>(xs: seq<T>, keep: T -> bool) returns (idx: seq<int>)
    ensures SelectedBy(Filter(xs, keep), xs, idx)
    ensures forall i :: 0 <= i < |xs| ==> (i in idx <==> keep(xs[i]))
  {
    if |xs| == 0 {
      idx := [];
    } else {
      var rest := Filter(xs[1..], keep);
      var tail := FilterSelectsExactly(xs[1..], keep);
      ShiftedSelection(rest, xs, tail);
      var shifted := Shifted(tail);
      forall i | 1 <= i < |xs|
        ensures i - 1 in tail <==> keep(xs[i])
      {
        assert xs[1..][i - 1] == xs[i];
      }
      if keep(xs[0]) {
        PrependSelection(xs[0], rest, xs, shifted);
        idx := [0] + shifted;
      } else {
        idx := shifted;
      }
    }
  }

  /** Filters by predicates that agree on every element give the same result. */
  lemma {:induction false} FilterAgrees<T>(xs: seq<T>, p: T -> bool, q: T -> bool)
    requires forall x :: x in xs ==> p(x) == q(x)
    ensures Filter(xs, p) == Filter(xs, q)
  {
    if |xs| > 0 {
      assert forall x :: x in xs[1..] ==> x in xs;
      FilterAgrees(xs[1..], p, q);
    }
  }

  /** A filter that every element passes keeps the whole sequence. */
  lemma {:induction false} FilterKeepsAll<T>(xs: seq<T>, p: T -> bool)
    requires forall k :: 0 <= k < |xs| ==> p(xs[k])
    ensures Filter(xs, p) == xs
  {
    if |xs| > 0 {
      FilterKeepsAll(xs[1..], p);
    }
  }

  /** A filter that no element passes keeps nothing. */
  lemma {:induction false} FilterKeepsNone<T>(xs: seq<T>, p: T -> bool)
    requires forall k :: 0 <= k < |xs| ==> !p(xs[k])
    ensures Filter(xs, p) == []
  {
    if |xs| > 0 {
      FilterKeepsNone(xs[1..], p);
    }
  }

  /** Filtering a concatenation filters the parts. */
  lemma {:induction false} FilterAppend<T>(xs: seq<T>, ys: seq<T>, p: T -> bool)
    ensures Filter(xs + ys, p) == Filter(xs, p) + Filter(ys, p)
  {
    if |xs| == 0 {
      assert xs + ys == ys;
    } else {
      assert (xs + ys)[1..] == xs[1..] + ys;
      FilterAppend(xs[1..], ys, p);
    }
  }

  /** Two filters in a row select what one filter by the conjunction selects. */
  lemma {:induction false} FilterTwice<T>(xs: seq<T>, p: T -> bool, q: T -> bool, both: T -> bool)
    requires forall x :: both(x) == (p(x) && q(x))
    ensures Filter(Filter(xs, p), q) == Filter(xs, both)
  {
    if |xs| > 0 {
      FilterTwice(xs[1..], p, q, both);
    }
  }

  /** Counting by two predicates that never hold together counts the elements
      satisfying either. */
  lemma {:induction false} FilterDisjointCount<T>(xs: seq<T>, p: T -> bool, q: T -> bool, either: T -> bool)
    requires forall x :: !(p(x) && q(x))
    requires forall x :: either(x) == (p(x) || q(x))
    ensures |Filter(xs, p)| + |Filter(xs, q)| == |Filter(xs, either)|
  {
    if |xs| > 0 {
      FilterDisjointCount(xs[1..], p, q, either);
    }
  }

  /** Every element is counted either by a predicate or by its negation. */
  lemma {:induction false} FilterComplementCount<T>(xs: seq<T>, p: T -> bool, notP: T -> bool)
    requires forall x :: notP(x) == !p(x)
    ensures |Filter(xs, p)| + |Filter(xs, notP)| == |xs|
  {
    if |xs| > 0 {
      FilterComplementCount(xs[1..], p, notP);
    }
  }

  /** The positions of `xs` holding an element that satisfies `p`. */
  ghost function PositionsWhere<T>(xs: seq<T>, p: T -> bool): set<int>
  {
    set i | 0 <= i < |xs| && p(xs[i])
  }

  /** `xs.filter(p).length` is the number of positions holding a `p` element. */
  lemma FilterCountsPositions<T>(xs: seq<T>, p: T -> bool)
    ensures |Filter(xs, p)| == |PositionsWhere(xs, p)|
  {
    var idx := FilterSelectsExactly(xs, p);
    forall k, l | 0 <= k < l < |idx|
      ensures idx[k] != idx[l]
    {
    }
    DistinctElementsCount(idx);
    assert (set x | x in idx) == PositionsWhere(xs, p) by {
      forall i | i in idx
        ensures i in PositionsWhere(xs, p)
      {
        var k :| 0 <= k < |idx| && idx[k] == i;
      }
    }
  }

  // ---------------------------------------------------------------------------
  // reduce((sum, x) => sum + f(x), 0)

  /** `xs.reduce((sum, x) => sum + f(x), 0)`. */
  function Sum<T>(xs: seq<T>, f: T -> int): (total: int)
  {
    if |xs| == 0 then 0 else f(xs[0]) + Sum(xs[1..], f)
  }

  /** Summing a concatenation sums the parts. */
  lemma {:induction false} SumAppend<T>(xs: seq<T>, ys: seq<T>, f: T -> int)
    ensures Sum(xs + ys, f) == Sum(xs, f) + Sum(ys, f)
  {
    if |xs| == 0 {
      assert xs + ys == ys;
    } else {
      assert (xs + ys)[1..] == xs[1..] + ys;
      SumAppend(xs[1..], ys, f);
    }
  }

  /** A sum of non-negative terms is non-negative and bounds each term. */
  lemma {:induction false} SumOfNonNegative<T>(xs: seq<T>, f: T -> int)
    requires forall k :: 0 <= k < |xs| ==> f(xs[k]) >= 0
    ensures Sum(xs, f) >= 0
    ensures forall k :: 0 <= k < |xs| ==> f(xs[k]) <= Sum(xs, f)
  {
    if |xs| > 0 {
      SumOfNonNegative(xs[1..], f);
      forall k | 1 <= k < |xs|
        ensures f(xs[k]) <= Sum(xs, f)
      {
        assert xs[k] == xs[1..][k - 1];
      }
    }
  }

  /** A sum whose every term is zero is zero. */
  lemma {:induction false} SumOfZeros<T>(xs: seq<T>, f: T -> int)
    requires forall k :: 0 <= k < |xs| ==> f(xs[k]) == 0
    ensures Sum(xs, f) == 0
  {
    if |xs| > 0 {
      SumOfZeros(xs[1..], f);
    }
  }

  // ---------------------------------------------------------------------------
  // let best = init; xs.forEach(x => { if (key(x) > key(best)) best = x; })

  /** Scans `xs` left to right, replacing `best` by an element whose key is
      STRICTLY greater; on a tie the earlier element stays. */
  function KeepGreater<T>(best: T, xs: seq<T>, key: T -> int): (r: T)
    decreases |xs|
  {
    if |xs| == 0 then best
    else KeepGreater(if key(xs[0]) > key(best) then xs[0] else best, xs[1..], key)
  }

  /** Scanning a concatenation is scanning the second part from where the
      first part left off (a nested `forEach` is one flat scan). */
  lemma {:induction false} KeepGreaterAppend<T>(best: T, xs: seq<T>, ys: seq<T>, key: T -> int)
    ensures KeepGreater(best, xs + ys, key) == KeepGreater(KeepGreater(best, xs, key), ys, key)
  {
    if |xs| == 0 {
      assert xs + ys == ys;
    } else {
      assert (xs + ys)[1..] == xs[1..] + ys;
      KeepGreaterAppend(if key(xs[0]) > key(best) then xs[0] else best, xs[1..], ys, key);
    }
  }

  /** Position `i` holds the first element of maximal key, and that key beats
      `floor`. */
  ghost predicate IsFirstMaximum<T>(xs: seq<T>, key: T -> int, floor: int, i: int)
  {
    && 0 <= i < |xs|
    && key(xs[i]) > floor
    && (forall j :: 0 <= j < |xs| ==> key(xs[j]) <= key(xs[i]))
    && (forall j :: 0 <= j < i ==> key(xs[j]) < key(xs[i]))
  }

  /** The scan returns its starting value when no key beats it, and otherwise
      the first element of maximal key. `i` is -1 in the first case and that
      element's position in the second. */
  lemma {:induction false} KeepGreaterFindsFirstMaximum<T>(init: T, xs: seq<T>, key: T -> int) returns (i: int)
    ensures -1 <= i < |xs|
    ensures i == -1 ==> KeepGreater(init, xs, key) == init
    ensures i == -1 <==> forall j :: 0 <= j < |xs| ==> key(xs[j]) <= key(init)
    ensures i >= 0 ==> KeepGreater(init, xs, key) == xs[i] && IsFirstMaximum(xs, key, key(init), i)
  {
    if |xs| == 0 {
      i := -1;
    } else {
      var next := if key(xs[0]) > key(init) then xs[0] else init;
      var tail := KeepGreaterFindsFirstMaximum(next, xs[1..], key);
      if tail == -1 {
        if key(xs[0]) > key(init) {
          i := 0;
          forall j | 1 <= j < |xs|
            ensures key(xs[j]) <= key(xs[0])
          {
            assert xs[j] == xs[1..][j - 1];
          }
        } else {
          i := -1;
          forall j | 1 <= j < |xs|
            ensures key(xs[j]) <= key(init)
          {
            assert xs[j] == xs[1..][j - 1];
          }
        }
      } else {
        i := tail + 1;
        forall j | 1 <= j < |xs|
          ensures key(xs[j]) <= key(xs[i])
          ensures j < i ==> key(xs[j]) < key(xs[i])
        {
          assert xs[j] == xs[1..][j - 1];
        }
      }
    }
  }

  /** The scan's result is its starting value or one of the elements, and its
      key is at least the starting key and every element's key. */
  lemma KeepGreaterBounds<T>(init: T, xs: seq<T>, key: T -> int)
    ensures var r := KeepGreater(init, xs, key);
      && key(init) <= key(r)
      && (forall j :: 0 <= j < |xs| ==> key(xs[j]) <= key(r))
      && (r == init || r in xs)
  {
    var i := KeepGreaterFindsFirstMaximum(init, xs, key);
  }

  /** At most one position is the first maximum. */
  lemma FirstMaximumUnique<T>(xs: seq<T>, key: T -> int, floor: int, i: int, j: int)
    requires IsFirstMaximum(xs, key, floor, i)
    requires IsFirstMaximum(xs, key, floor, j)
    ensures i == j
  {
  }

  // ---------------------------------------------------------------------------
  // distinct

  ghost predicate NoDuplicates<T>(xs: seq<T>)
  {
    forall i, j :: 0 <= i < j < |xs| ==> xs[i] != xs[j]
  }

  /** The set of values occurring in `xs`. */
  ghost function Elements<T>(xs: seq<T>): set<T>
  {
    set x | x in xs
  }

  /** A sequence without repeats has as many elements as it has values. */
  lemma {:induction false} DistinctElementsCount<T>(xs: seq<T>)
    requires NoDuplicates(xs)
    ensures |Elements(xs)| == |xs|
  {
    if |xs| > 0 {
      var tail := xs[1..];
      DistinctElementsCount(tail);
      assert Elements(xs) == {xs[0]} + Elements(tail);
      assert xs[0] !in Elements(tail) by {
        forall k | 0 <= k < |tail|
          ensures tail[k] != xs[0]
        {
          assert tail[k] == xs[k + 1];
        }
      }
    }
  }

  /** Each value of `xs` once (the store's `distinct` query). */
  function Distinct<T(==)>(xs: seq<T>): (r: seq<T>)
    ensures NoDuplicates(r)
    ensures forall k :: 0 <= k < |r| ==> r[k] in xs
    ensures forall i :: 0 <= i < |xs| ==> xs[i] in r
    ensures |r| <= |xs|
  {
    if |xs| == 0 then []
    else
      var rest := Distinct(xs[1..]);
      assert forall i :: 1 <= i < |xs| ==> xs[i] == xs[1..][i - 1];
      if xs[0] in rest then rest else [xs[0]] + rest
  }

  /** `distinct(xs).length` is the number of different values in `xs`. */
  lemma DistinctCountsValues<T>(xs: seq<T>)
    ensures |Distinct(xs)| == |Elements(xs)|
  {
    var r := Distinct(xs);
    DistinctElementsCount(r);
    assert Elements(r) == Elements(xs);
  }
}

=== FILE: status_resolver.dfy ===
/** The status the elections page shows for an election: its stored status,
    overridden by a comparison of the current time with the start and end
    dates whenever both date fields are filled in. The page never writes the
    result back to the store. */
module StatusResolver {
  import opened Domain

  /** The effective status of an election whose stored status is `stored`,
      whose date fields are `start` and `end`, at time `now` (milliseconds).
      The dates need only be filled in, not parseable; a comparison with an
      unparseable date is simply false. The result is the stored status or a
      lifecycle phase, and the stored status whenever a field is blank or
      `null`. */
  function EffectiveStatus(stored: Status, start: DateField, end: DateField, now: int): (r: Status)
    ensures !IsFilledIn(start) || !IsFilledIn(end) ==> r == stored
    ensures r == stored || Phase(r) >= 0
  {
    var t, s, e := At(now), DateOf(start), DateOf(end);
    if IsFilledIn(start) && IsFilledIn(end) then
      if Earlier(t, s) then Upcoming
      else if NotLater(s, t) && NotLater(t, e) then Active
      else if Earlier(e, t) then Completed
      else stored
    else stored
  }

  /** Position in the lifecycle upcoming, active, completed; -1 off it. */
  function Phase(s: Status): int
  {
    match s
    case Upcoming => 0
    case Active => 1
    case Completed => 2
    case _ => -1
  }

  /** With two valid dates the time alone decides, and the result is always a
      lifecycle phase: a stored "cancelled" is overridden as well. */
  lemma ValidDatesDecide(stored: Status, start: int, end: int, now: int)
    ensures var r := EffectiveStatus(stored, Given(At(start)), Given(At(end)), now);
      && (r == Upcoming <==> now < start)
      && (r == Active <==> start <= now <= end)
      && (r == Completed <==> start <= now && end < now)
      && Phase(r) >= 0
  {
  }

  /** With two valid dates the stored status has no influence on the result. */
  lemma ValidDatesIgnoreStored(a: Status, b: Status, start: int, end: int, now: int)
    ensures EffectiveStatus(a, Given(At(start)), Given(At(end)), now)
         == EffectiveStatus(b, Given(At(start)), Given(At(end)), now)
  {
  }

  /** Filled-in but unparseable dates: both unparseable keeps the stored
      status; one valid date can still decide the comparison that involves it
      alone. */
  lemma UnparseableDates(stored: Status, start: int, end: int, now: int)
    ensures EffectiveStatus(stored, Given(InvalidDate), Given(InvalidDate), now) == stored
    ensures EffectiveStatus(stored, Given(At(start)), Given(InvalidDate), now)
         == (if now < start then Upcoming else stored)
    ensures EffectiveStatus(stored, Given(InvalidDate), Given(At(end)), now)
         == (if now > end then Completed else stored)
  {
  }

  /** The effective status never moves back in the lifecycle as time passes,
      whatever the order of the two dates. */
  lemma PhaseNeverGoesBack(stored: Status, start: int, end: int, earlier: int, later: int)
    requires earlier <= later
    ensures Phase(EffectiveStatus(stored, Given(At(start)), Given(At(end)), earlier))
         <= Phase(EffectiveStatus(stored, Given(At(start)), Given(At(end)), later))
  {
  }

  /** An end date before the start date makes the election skip "active". */
  lemma ReversedDatesNeverActive(stored: Status, start: int, end: int, now: int)
    requires end < start
    ensures EffectiveStatus(stored, Given(At(start)), Given(At(end)), now) != Active
  {
  }

  /** Resolving a status that was already resolved at the same time changes
      nothing. */
  lemma ResolvingTwiceIsResolvingOnce(stored: Status, start: DateField, end: DateField, now: int)
    ensures var once := EffectiveStatus(stored, start, end, now);
      EffectiveStatus(once, start, end, now) == once
  {
  }
}

=== FILE: text.dfy ===
/** The string operations the views use: `toLowerCase`, `includes`, a
    number's decimal text, and `Array.prototype.join` with its inverse. */
module Text {

  // ---------------------------------------------------------------------------
  // toLowerCase and case-insensitive search

  /** `toLowerCase` on one character; only the ASCII letters are mapped. */
  function LowerChar(c: char): char
  {
    if 'A' <= c <= 'Z' then (c as int - 'A' as int + 'a' as int) as char else c
  }

  /** `s.toLowerCase()`, character by character. */
  function Lower(s: string): (r: string)
    ensures |r| == |s|
    ensures forall i :: 0 <= i < |s| ==> r[i] == LowerChar(s[i])
  {
    if |s| == 0 then "" else [LowerChar(s[0])] + Lower(s[1..])
  }

  /** `hay.includes(needle)`: the needle is a prefix of some suffix of the hay. */
  predicate Contains(hay: string, needle: string)
    decreases |hay|
  {
    if |needle| > |hay| then false
    else if hay[..|needle|] == needle then true
    else Contains(hay[1..], needle)
  }

  /** The needle occupies positions `i .. i + |needle|` of the hay. */
  ghost predicate OccursAt(hay: string, needle: string, i: int)
  {
    0 <= i <= |hay| - |needle| && hay[i..i + |needle|] == needle
  }

  /** `includes` is true exactly when the needle occurs at some position. */
  lemma {:induction false} ContainsMeansOccurs(hay: string, needle: string)
    ensures Contains(hay, needle) <==> exists i :: OccursAt(hay, needle, i)
  {
    if |needle| > |hay| {
    } else if hay[..|needle|] == needle {
      assert OccursAt(hay, needle, 0);
    } else {
      ContainsMeansOccurs(hay[1..], needle);
      forall i | 0 <= i
        ensures OccursAt(hay[1..], needle, i) <==> OccursAt(hay, needle, i + 1)
      {
        if i <= |hay| - 1 - |needle| {
          assert hay[1..][i..i + |needle|] == hay[i + 1..i + 1 + |needle|];
        }
      }
      if exists i :: OccursAt(hay, needle, i) {
        var i :| OccursAt(hay, needle, i);
        assert i != 0;
        assert OccursAt(hay[1..], needle, i - 1);
      }
    }
  }

  /** The empty string is found in every string. */
  lemma EmptyIsContained(hay: string)
    ensures Contains(hay, "")
  {
    assert hay[..0] == "";
  }

  /** The search the views perform: `text.toLowerCase().includes(term.toLowerCase())`. */
  predicate MatchesSearch(text: string, term: string)
  {
    Contains(Lower(text), Lower(term))
  }

  /** The term matches the text at position `i` letter by letter, ignoring the
      case of ASCII letters. */
  ghost predicate OccursIgnoringCase(text: string, term: string, i: int)
  {
    0 <= i <= |text| - |term| &&
    forall k :: 0 <= k < |term| ==> LowerChar(text[i + k]) == LowerChar(term[k])
  }

  /** The search is a case-insensitive substring test. */
  lemma MatchesSearchIgnoresCase(text: string, term: string)
    ensures MatchesSearch(text, term) <==> exists i :: OccursIgnoringCase(text, term, i)
  {
    var lt, lq := Lower(text), Lower(term);
    ContainsMeansOccurs(lt, lq);
    forall i
      ensures OccursAt(lt, lq, i) <==> OccursIgnoringCase(text, term, i)
    {
      if 0 <= i <= |text| - |term| {
        if OccursAt(lt, lq, i) {
          forall k | 0 <= k < |term|
            ensures LowerChar(text[i + k]) == LowerChar(term[k])
          {
            assert lt[i..i + |lq|][k] == lq[k];
          }
        }
        if OccursIgnoringCase(text, term, i) {
          assert lt[i..i + |lq|] == lq;
        }
      }
    }
  }

  /** An empty search term matches every text. */
  lemma EmptyTermMatches(text: string)
    ensures MatchesSearch(text, "")
  {
    EmptyIsContained(Lower(text));
  }

  // ---------------------------------------------------------------------------
  // Number.prototype.toString for non-negative integers

  function DigitChar(d: int): char
    requires 0 <= d < 10
  {
    ('0' as int + d) as char
  }

  predicate IsDigit(c: char)
  {
    '0' <= c <= '9'
  }

  /** The decimal text of `n`, as `String(n)` prints a non-negative integer. */
  function Decimal(n: nat): (s: string)
    ensures 1 <= |s|
    ensures forall i :: 0 <= i < |s| ==> IsDigit(s[i])
    ensures s[0] == '0' ==> n == 0
  {
    if n < 10 then [DigitChar(n)] else Decimal(n / 10) + [DigitChar(n % 10)]
  }

  /** The number a string of decimal digits denotes. */
  function DecimalValue(s: string): nat
    requires forall i :: 0 <= i < |s| ==> IsDigit(s[i])
  {
    if |s| == 0 then 0
    else
      assert IsDigit(s[|s| - 1]);
      DecimalValue(s[..|s| - 1]) * 10 + (s[|s| - 1] as int - '0' as int)
  }

  /** Reading back the decimal text of `n` gives `n`. */
  lemma {:induction false} DecimalRoundTrip(n: nat)
    ensures DecimalValue(Decimal(n)) == n
  {
    if n >= 10 {
      var s := Decimal(n);
      var prefix := Decimal(n / 10);
      assert s[..|s| - 1] == prefix;
      DecimalRoundTrip(n / 10);
    }
  }

  // ---------------------------------------------------------------------------
  // join and its inverse

  /** `parts.join(sep)`. */
  function Join(parts: seq<string>, sep: char): (s: string)
    ensures |parts| == 1 ==> s == parts[0]
  {
    if |parts| == 0 then ""
    else if |parts| == 1 then parts[0]
    else parts[0] + [sep] + Join(parts[1..], sep)
  }

  /** A character that occurs in no part and is not the separator does not
      occur in the joined text. */
  lemma {:induction false} JoinAvoids(parts: seq<string>, sep: char, c: char)
    requires c != sep
    requires forall k :: 0 <= k < |parts| ==> c !in parts[k]
    ensures c !in Join(parts, sep)
  {
    if |parts| > 1 {
      JoinAvoids(parts[1..], sep, c);
    }
  }

  /** The position of the first `c` in `s`. */
  function IndexOf(s: string, c: char): (i: nat)
    requires c in s
    ensures i < |s| && s[i] == c && c !in s[..i]
  {
    if s[0] == c then 0
    else
      assert c in s[1..] by {
        var k :| 0 <= k < |s| && s[k] == c;
        assert s[1..][k - 1] == c;
      }
      1 + IndexOf(s[1..], c)
  }

  /** `s.split(sep)`: the pieces between separators. */
  function Split(s: string, sep: char): (parts: seq<string>)
    ensures |parts| >= 1
    ensures forall k :: 0 <= k < |parts| ==> sep !in parts[k]
    decreases |s|
  {
    if sep !in s then [s]
    else
      var i := IndexOf(s, sep);
      [s[..i]] + Split(s[i + 1..], sep)
  }

  /** Splitting a text whose first separator follows `head` yields `head`
      and then the pieces of the remainder. */
  lemma SplitAtFirst(head: string, sep: char, rest: string)
    requires sep !in head
    ensures Split(head + [sep] + rest, sep) == [head] + Split(rest, sep)
  {
    var s := head + [sep] + rest;
    assert s[|head|] == sep;
    assert s[..|head|] == head;
    assert IndexOf(s, sep) == |head|;
    assert s[|head| + 1..] == rest;
  }

  /** Splitting a join recovers the parts, provided none contains the separator. */
  lemma {:induction false} SplitJoin(parts: seq<string>, sep: char)
    requires |parts| >= 1
    requires forall k :: 0 <= k < |parts| ==> sep !in parts[k]
    ensures Split(Join(parts, sep), sep) == parts
  {
    if |parts| > 1 {
      SplitAtFirst(parts[0], sep, Join(parts[1..], sep));
      SplitJoin(parts[1..], sep);
      assert parts == [parts[0]] + parts[1..];
    }
  }
}

=== FILE: wrappers.dfy ===
/** Failure-compatible wrappers used throughout the model: an optional value
    (a JavaScript field that may be `undefined`) and a result that is either a
    value or an error message (a rejected promise). */
module Wrappers {

  datatype Option<+T> = None | Some(value: T) {

    /** The value, or `default` when absent: JavaScript's `x || default` for a
        field that is either missing or holds a value. */
    function GetOr(default: T): T
    {
      match this
      case Some(v) => v
      case None => default
    }
  }

  datatype Result<+T> = Success(value: T) | Failure(error: string) {

    predicate IsFailure()
    {
      Failure?
    }

    function PropagateFailure<U>(): Result<U>
      requires Failure?
    {
      Failure(error)
    }

    function Extract(): T
      requires Success?
    {
      value
    }
  }
}
